=== FILE: README.md ===
# YouTube downloader core in Dafny

This project models the core of a desktop YouTube downloader. That core covers:

- how a URL becomes a video or a playlist;
- which quality labels the menu offers;
- which stream `download` picks for a video or an audio file;
- the file names, muxer command line and temporary-file clean-up of the merge path;
- the batch loop that downloads every listed item and writes a status into the item list;
- the percentage shown by the progress bar.

Every operation is a pure function, or a method with a loop, over immutable data. The library, the file system, the muxer process and the window are parameters or logs:

- **Streams library.** A stream is a record with a kind, an optional resolution and an optional bitrate label. `filter(...)` is a predicate. `first()` is the first match. `order_by(attr).desc().first()` is the last stream of greatest rank (`Streams.BestIndex`). The rank the library gives a label is a parameter `rank: string -> int`.
- **URL fetching.** Whether constructing a `Playlist` or a `YouTube` object succeeds is a `Lookup` parameter: `Found(value)` or `Raised(message)`.
- **File system.** The file system is a set of paths. Transfers, muxer runs and removals are recorded in an action log. How each transfer, merge and removal ends is a parameter (`Handler.Attempt`).
- **Window.** The worker thread's requests to the window are a sequence of events (`App.UiEvent`), applied in order. Each `download` call's result (returned, or raised with some text) is an input of the batch loop.
- **Python semantics.** Python's string operations are written out in `Text`: `in`, `split`, `join`, `replace`, slicing, `int()` and `f"{n:02d}"`. `os.path.join` follows POSIX.

Modules, in dependency order:

- `Wrappers`: `Option`
- `Text`: Python string operations
- `Helpers`: `sanitize_filename`
- `Streams`: stream records and the library's queries
- `Quality`: `get_quality_options`
- `Fetch`: `fetch_details`
- `Handler`: `download`, `_download_audio` and `_download_video`
- `Listbox`: the item list's lines
- `Progress`: the progress callback
- `App`: quality menu, playlist folder and batch loop

Where the code has one of the bugs listed under "## Findings", the main members model the corrected code, and their rows below start with "corrected:". The code as written is modelled by the members whose names contain `AsWritten`.

Where the code and its documentation disagree, the model follows the code:

- The video path has no fallback to another resolution. If neither a progressive nor a video-only stream has exactly the requested resolution, the item fails (`Handler.NoResolutionFallback`).
- Quality labels are de-duplicated as strings, not by their numeric value. Two different labels with the same number both stay in the list. With distinct numbers the list is strictly descending (`Quality.StrictWhenKeysDistinct`).

## Model

| member | source | states |
|---|---|---|
| Helpers.Sanitize | utils/helpers.py:10-20 | each of `< > : " / \ | ? *` becomes `-`, every other character and the length are kept, and the result has no illegal character |
| Helpers.SanitizeIdempotent | utils/helpers.py:20 | sanitising a sanitised name changes nothing |
| Helpers.SanitizeConcat | utils/helpers.py:20 | sanitising works character by character, so it distributes over concatenation |
| Text.JoinSplit | gui/app.py:327-329 | joining the pieces of a split with the same separator gives the original string back |
| Text.SplitLastFree | gui/app.py:327-329 | the last piece of a split contains no separator |
| Text.FindLast | gui/app.py:327-330 | the position of the last occurrence of a pattern, and `None` exactly when there is none |
| Text.ReplaceAll | gui/app.py:149 | a string without the pattern comes back unchanged from Python's `replace` |
| Text.ReplaceIsSplitJoin | gui/app.py:149 | `replace` equals splitting at the pattern and joining with the replacement, so every occurrence found left to right is replaced and the text between them kept |
| Text.ParseInt | utils/youtube_handler.py:89-100 | Python `int()` succeeds exactly on ASCII digits, optionally after one `+` or `-`, and reads them as their signed decimal value; anything else (the empty string, `abc`, `12a`) raises |
| Text.DigitsOf | utils/youtube_handler.py:89 | `re.sub(r"\D", "", x)` leaves only decimal digits and never lengthens the string |
| Quality.DigitsOfAppend | utils/youtube_handler.py:89 | removing the non-digits distributes over concatenation |
| Quality.DigitsOfDigits | utils/youtube_handler.py:89 | a string of digits is left unchanged |
| Quality.NoDigitsGivesEmpty | utils/youtube_handler.py:89 | a string without digits becomes empty |
| Text.Pad2 | gui/app.py:164 | `f"{n:02d}"` is at least two digits, exactly two below 100, has no leading zero from 10 on, and `int()` reads it back as `n` |
| Text.NatToString | gui/app.py:164 | `str(n)` is non-empty decimal digits that spell `n`, with no leading zero unless `n` is 0 |
| Text.Take | gui/app.py:171 | `s[:50]` is the first `min(50, len(s))` characters |
| Fetch.FetchDetails | utils/youtube_handler.py:24-70 | a URL containing `"playlist"` is fetched as a playlist and any other as one video; a playlist without videos, or a raised exception, gives the failure with its message; on success the first video's streams and thumbnail are returned |
| Fetch.WatchUrlIsSingleVideo | utils/youtube_handler.py:42 | the one URL `https://www.youtube.com/watch?v=x&list=PL1`, which has a `list=` parameter but not the word `playlist`, is fetched as a single video |
| Streams.FirstIndex | utils/youtube_handler.py:149 | `filter(...).first()` is the first matching stream, and `None` exactly when none matches |
| Streams.BestIndex | utils/youtube_handler.py:184-186 | `order_by(attr).desc().first()` is a matching stream with the attribute whose rank is maximal and strictly above every later one, and `None` exactly when no stream qualifies |
| Quality.LabelsOf | utils/youtube_handler.py:88 | a label is collected exactly when some stream of the wanted kind carries it |
| Quality.KeyOf | utils/youtube_handler.py:89-100 | the audio key parses exactly when the label has a digit, and is the value of its digits; the video key of a label of one character or none raises, and otherwise is the value of the label without its last character when that is all digits |
| Quality.Dedup | utils/youtube_handler.py:88 | de-duplication keeps exactly the same labels and repeats none |
| Quality.SortDesc | utils/youtube_handler.py:87-91 | the sort is a permutation of its input, in descending order of the numeric key |
| Quality.QualityOptions | utils/youtube_handler.py:72-106 | the result is `["Not Available"]` exactly when there is no label or some label's key does not parse; otherwise it holds exactly the stream labels, without repeats, in descending key order |
| Quality.NotAvailableNeverParses | utils/youtube_handler.py:106 | the placeholder `"Not Available"` never parses as a quality in either mode |
| Quality.StrictWhenKeysDistinct | utils/youtube_handler.py:87-102 | when different labels have different keys, the list is strictly descending |
| Quality.AudioExample | utils/youtube_handler.py:85-91 | the audio streams 128, 160, 128 and 70 kbps give `["160kbps", "128kbps", "70kbps"]` |
| Quality.KbpsKey | utils/youtube_handler.py:89 | the key of `d + "kbps"` is the number the digits `d` spell |
| Handler.BestAudio | utils/youtube_handler.py:186 | the best audio stream is audio-only, carries a bitrate, and no audio stream outranks it |
| Handler.SelectAudio | utils/youtube_handler.py:149-154 | the first audio stream whose bitrate equals the request is chosen; failing that, the best-ranked audio stream; the error `No audio stream found.` exactly when there is no audio stream |
| Handler.SelectVideo | utils/youtube_handler.py:175-189 | a progressive stream at the requested resolution wins exactly when one exists, and it is the first; otherwise a video-only stream at that resolution plus the best audio stream; the error exactly when both fail |
| Handler.NoResolutionFallback | utils/youtube_handler.py:175-189 | with no stream at the requested resolution the video path fails instead of choosing another resolution |
| Handler.PathJoinInjective | utils/youtube_handler.py:192-194 | `os.path.join` into one directory is injective on relative names |
| Handler.FileNamesDistinct | utils/youtube_handler.py:157-194 | the audio target, the output and the two temporary files of one item are four different paths |
| Handler.TryBlock | utils/youtube_handler.py:196-225 | the guarded block succeeds exactly when both transfers and the merge do; it then creates the output; the muxer runs once exactly when both transfers succeed, with the fixed command line; each failure is the one raised |
| Handler.RemoveGuarded | utils/youtube_handler.py:228-234 | a file named for clean-up survives only when its removal raised, and nothing else changes |
| Handler.RunAdaptive | utils/youtube_handler.py:192-234 | corrected: temporary files survive only a failed removal; only the item's three files change; success exactly when both transfers and the merge succeed; muxer runs and transfers are counted; the command line is fixed; a missing muxer or a failed merge is reported with its message, and a transfer failure goes through the same handlers |
| Handler.AsWrittenRunsTwice | utils/youtube_handler.py:196-251 | as written, a successful merge path transfers four times and runs the muxer twice, while the corrected path transfers twice and merges once |
| Handler.AsWrittenLeaksVideoTemp | utils/youtube_handler.py:236-251 | as written, when the repeated audio transfer raises, the video temporary file stays on disk and the transfer error is reported |
| Handler.SecondAttempt | utils/youtube_handler.py:236-251 | the repeated block as written touches only the item's three files, lets a transfer's exception out unchanged, succeeds only when both transfers and the merge do (then the output exists), and runs the muxer at most once |
| Handler.RunAdaptiveAsWritten | utils/youtube_handler.py:192-251 | the adaptive branch as written touches only the item's three files; when the guarded attempt fails it ends exactly as the corrected path; success needs both attempts to transfer and merge and leaves the output; the muxer runs at most twice |
| Handler.Execute | utils/youtube_handler.py:124-251 | every plan, the as-written adaptive one included, touches only the item's four paths; the audio plan transfers once to `.mp3`, the progressive plan once to `.mp4`, neither merges, and a selection error changes nothing; the audio plan transfers once to `.mp3`, the progressive plan once to `.mp4`, neither merges, and a selection error changes nothing; the audio or progressive plan succeeds exactly when its transfer saves, then the target exists, and otherwise raises the transfer's error; the corrected adaptive plan succeeds exactly when both transfers and the merge do |
| Handler.Download | utils/youtube_handler.py:108-134 | corrected: every file `download` touches is one of the item's four paths under the sanitised `prefix + title`, and every transferred stream belongs to the video; it raises the selection error without touching files, raises when the single transfer raises, and otherwise (adaptive) exactly when a transfer or the merge fails; on success the `.mp3` (audio mode) or `.mp4` exists |
| Handler.DownloadAudioMode | utils/youtube_handler.py:127-157 | mode `"Audio"` only writes the `.mp3` target and never runs the muxer |
| Handler.DownloadVideoMode | utils/youtube_handler.py:129-179 | corrected: any other mode never writes the `.mp3` target; with a progressive match it transfers once, does not merge, and creates only the output |
| Handler.DownloadLeavesNoTemps | utils/youtube_handler.py:226-234 | corrected: after `download`, a temporary file that did not exist before is present only when its removal failed |
| Handler.DownloadAsWritten | utils/youtube_handler.py:108-251 | the download as written still never runs the muxer in audio mode |
| Listbox.InitialLine | gui/app.py:203-204 | a freshly listed line is cut by the corrected rewrite exactly after `NN. title`, and its first digits read back as the item number |
| Listbox.StatusPrefixAsWritten | gui/app.py:327-329 | as written, the kept text is followed by a separator and a separator-free tail, or is empty when the line has no separator |
| Listbox.AsWrittenCutOnPlain | gui/app.py:327-329 | the as-written cut of `p - st` gives back `p` when `st` holds no separator and `p` does not end in ` -` |
| Listbox.SplitAtJoint | gui/app.py:327 | splitting `p - st` at every separator, left to right, gives the pieces of `p` and then `st`, under the same conditions |
| Listbox.UpdateAsWritten | gui/app.py:317-334 | as written, only the indexed line changes and it becomes a prefix of the old line, the separator and the new status; an index past the end changes nothing |
| Listbox.StatusPrefix | gui/app.py:327-329 | corrected: the text before the last occurrence of the separator, or empty when there is none |
| Listbox.Update | gui/app.py:317-334 | corrected: only the indexed line changes; it keeps a prefix of the old line and ends in the separator and the new status |
| Listbox.UpdateRewritesStatus | gui/app.py:327-330 | corrected: a line `p - st` whose status has no separator and does not start with `- ` becomes `p - status` |
| Listbox.UpdateKeepsTitle | gui/app.py:203-204 | corrected: rewriting the status of an initial line keeps its number and title, whatever the title contains |
| Listbox.AsWrittenDropsTrailingDash | gui/app.py:327-330 | as written, the item titled `-` becomes `01. - Downloading...`; the corrected rewrite gives `01. - - Downloading...` |
| Progress.Percent | gui/app.py:268-270 | the fraction times the total is the bytes downloaded; it is 0 for an unknown size, within [0, 1] for a sane count, and 1 when nothing remains |
| Progress.PercentMonotone | gui/app.py:270 | as fewer bytes remain, the fraction never decreases |
| App.QualityMenu | gui/app.py:219-227 | with streams the menu is enabled and lists the quality options, otherwise it is disabled with `Fetch URL first`; the first entry is selected |
| App.SelectionIsBest | gui/app.py:219-224 | the default selection, unless it is `Not Available`, is a real label of the highest key |
| App.TitleText | gui/app.py:197-199 | the title label starts with `Playlist: ` exactly for a playlist, and ends with the fetched title |
| App.StripLabel | gui/app.py:149 | the corrected title recovery removes a leading `Playlist: ` and nothing else; a text that does not start with it is kept whole |
| App.PlaylistFolderOfFetched | gui/app.py:146-151 | corrected: after fetching a playlist, its folder is the download directory joined with the sanitised playlist title |
| App.AsWrittenFolderLosesTitle | gui/app.py:149 | as written, a playlist titled `Playlist: ` is saved straight into the download directory |
| App.ItemPrefix | gui/app.py:164 | a playlist item's prefix is its 1-based number in two or more digits, with no leading zero from item 10 on, followed by a dot; a single video has none |
| App.PlaylistItemsDisjoint | gui/app.py:155-166 | two different items of one playlist never share a file path, temporary files included |
| App.FinalStatus | gui/app.py:168-171 | an item ends `✔ Completed`, or `❌ FAILED - ` followed by at most 50 characters of the error |
| App.RunItems | gui/app.py:155-177 | corrected: every item is handed to `download` in order, with its own prefix and the shared folder; status updates come in item order; every failure is reported; the list shows the posted updates under the status rewrite cut at the last separator |
| App.DownloadLogic | gui/app.py:136-179 | the corrected batch (the folder and line-148 fixes, and the status rewrite cut at the last separator) downloads every item in order, finalises exactly once and last, reports every failure, and leaves each listed item with its number, title and final status |
| App.DownloadLogicAsWritten | gui/app.py:136-179 | as written, a playlist of two or more videos stops before the first item: nothing is downloaded, no status changes and the batch is never finalised; a single video is downloaded into the chosen directory without prefix, its failure is reported, the batch is finalised once, and with the as-written status rewrite its line keeps number and title unless the text before the status ends in ` -` |
| App.RunSingleAsWritten | gui/app.py:155-177 | the loop for one video as written: one job without prefix, Finalize last and only there, its failure reported, only its line rewritten, keeping number and title under the same condition |
| App.AsWrittenFinishLine | gui/app.py:317-334 | a pending line rewritten twice with the as-written cut keeps the text before its status when that text does not end in ` -` |

## Left out

- Threads, the Tk event loop and widgets are not modelled. Window updates are an ordered event sequence. The 100 ms delay of the error dialog is not modelled.
- Fetching details on a worker thread, the thumbnail download, the directory dialog and the MB text of the progress label (`gui/app.py:119-134, 229-257, 272`) are left out. They are display-only or network I/O.
- `main.py`, `gui/ui_components.py` and the logging calls are not part of this model.
- `os.makedirs` of the playlist folder is not modelled. The folder is only a path here.
- Windows path rules are not modelled. `os.path.join` follows POSIX.
- The library's transfers and the muxer process are abstracted. Their outcomes are parameters. A transfer that raises may or may not leave a partial file.
- The order the library gives streams is a rank parameter. Its string-ordering fallback for labels it cannot read as numbers is not modelled.
- Quality.QualityOptions: labels with equal keys keep their first-appearance order. The source sorts a Python `set`, whose order among equal keys is unspecified.
- Text.ParseInt: does not accept the surrounding whitespace, underscores or non-ASCII digits that Python's `int()` also accepts. Stream labels never contain them.
- Progress.Percent: computes with exact rationals instead of binary floating point.
- Handler.RunAdaptive: does not say whether a failed merge leaves a partial output file. The model leaves none.
- Handler.DownloadAsWritten: states only that audio mode never merges. The as-written merge path is characterised by `Handler.AsWrittenRunsTwice` and `Handler.AsWrittenLeaksVideoTemp`.
- Listbox.Update: the source strips the whole text and splits it on newlines before rewriting. The model keeps the list as lines, so a title or a status text containing a newline (such as an error message cut to 50 characters at `gui/app.py:171`) is not modelled.
- Text.DigitsOf: keeps ASCII digits only, while Python 3's `re.sub(r"\D", ...)` also keeps other Unicode decimal digits. Stream labels never contain them.

## Findings

| source | as written | input that shows it | evidently intended | confidence | as-written member | corrected member |
|---|---|---|---|---|---|---|
| utils/youtube_handler.py:236-251 | after the guarded transfer-merge-cleanup block, both streams are transferred again and merged again; this second removal is outside any guard | any adaptive download: four transfers and two muxer runs; if the second audio transfer raises, the `_video.mp4` file is left behind | transfer and merge once, inside the guarded block | not executed | Handler.AsWrittenLeaksVideoTemp | Handler.RunAdaptive |
| gui/app.py:148 | `self.handler.helpers.sanitize_filename(...)`, but `YouTubeHandler` has no `helpers` attribute | any playlist of two or more videos: `AttributeError` before the first item, so nothing is downloaded and the batch is never finalised | call the module's `sanitize_filename` directly | not executed | App.DownloadLogicAsWritten | App.DownloadLogic |
| gui/app.py:327-329 | the status is cut off by splitting at every `" - "` and rejoining all but the last piece | the item titled `-`: line `01. - - Pending` becomes `01. - Downloading...`, losing the title | cut at the last `" - "` only | not executed | Listbox.AsWrittenDropsTrailingDash | Listbox.UpdateKeepsTitle |
| gui/app.py:149 | `.replace("Playlist: ", "")` removes every occurrence, including any inside the playlist's own title; this only matters once line 148 is fixed | a playlist titled `Playlist: ` gets an empty folder name, so its files go straight into the download directory | remove only the leading label | not executed | App.AsWrittenFolderLosesTitle | App.PlaylistFolderOfFetched |

=== FILE: app.dfy ===
/**
  The window's own logic with widgets and threads stripped away: the default
  quality selection, the playlist folder, the numbering prefix, and the batch
  loop that downloads every listed video in order and reports a status per
  item. Updates that the worker posts to the interface thread are modelled
  as a sequence of events, applied in the order they are posted.
*/
module App {
  import opened Wrappers
  import opened Text
  import opened Helpers
  import opened Streams
  import opened Quality
  import opened Fetch
  import opened Handler
  import opened Listbox

  // ---------------------------------------------------------------------
  // Quality menu

  const FetchFirst: string := "Fetch URL first"

  /** The quality menu: its entries, whether it is enabled, and the selection. */
  datatype Menu = Menu(values: seq<string>, enabled: bool, selected: string)

  /** `update_quality_options`: with streams at hand the entries are the
      enumerated qualities and the first is selected; otherwise a disabled
      placeholder. An empty stream query is falsy, like `None`. */
  function QualityMenu(streams: Option<seq<Stream>>, mode: string): (m: Menu)
    ensures |m.values| >= 1 && m.selected == m.values[0]
    ensures m.enabled <==> streams.Some? && |streams.value| > 0
    ensures !m.enabled ==> m.values == [FetchFirst]
    ensures m.enabled ==> m.values == QualityOptions(streams.value, mode)
    ensures m.enabled && m.selected != NotAvailable ==>
              m.selected in Labels(streams.value, mode)
              && forall l :: l in Labels(streams.value, mode) ==> K(mode, l) <= K(mode, m.selected)
  {
    if streams.Some? && |streams.value| > 0 then
      var q := QualityOptions(streams.value, mode);
      SelectionIsBest(streams.value, mode);
      Menu(q, true, q[0])
    else Menu([FetchFirst], false, FetchFirst)
  }

  lemma SelectionIsBest(ss: seq<Stream>, mode: string)
    ensures var q := QualityOptions(ss, mode);
            q[0] != NotAvailable ==>
              && q[0] in Labels(ss, mode)
              && forall l :: l in Labels(ss, mode) ==> K(mode, l) <= K(mode, q[0])
  {
    var q := QualityOptions(ss, mode);
    if q[0] != NotAvailable {
      assert q != [NotAvailable];
      forall l | l in Labels(ss, mode) ensures K(mode, l) <= K(mode, q[0]) {
        assert l in q;
        var j :| 0 <= j < |q| && q[j] == l;
        if j > 0 {
          assert K(mode, q[0]) >= K(mode, q[j]);
        }
      }
    }
  }


  // ---------------------------------------------------------------------
  // Title label and playlist folder

  const PlaylistLabel: string := "Playlist: "

  /** The title label after a successful fetch. */
  function TitleText(d: Details): (r: string)
    requires d.Fetched?
    ensures d.isPlaylist <==> |r| >= |PlaylistLabel| && r[..|PlaylistLabel|] == PlaylistLabel
    ensures |r| >= |d.title| && r[|r| - |d.title|..] == d.title
  {
    if d.isPlaylist then
      var r := PlaylistLabel + d.title;
      assert r[..|PlaylistLabel|] == PlaylistLabel && r[|r| - |d.title|..] == d.title;
      r
    else
      var r := "Video: " + d.title;
      assert r[|r| - |d.title|..] == d.title;
      assert |r| >= |PlaylistLabel| ==> r[..|PlaylistLabel|][0] == 'V';
      r
  }

  /** The playlist title recovered from the label: the leading `"Playlist: "`
      the window itself wrote is removed, and nothing else. */
  function StripLabel(text: string): (r: string)
    ensures |text| >= |PlaylistLabel| && text[..|PlaylistLabel|] == PlaylistLabel ==> text == PlaylistLabel + r
    ensures !(|text| >= |PlaylistLabel| && text[..|PlaylistLabel|] == PlaylistLabel) ==> r == text
  {
    if |text| >= |PlaylistLabel| && text[..|PlaylistLabel|] == PlaylistLabel then
      assert text == PlaylistLabel + text[|PlaylistLabel|..];
      text[|PlaylistLabel|..]
    else text
  }

  /** The folder a playlist is saved in. */
  function PlaylistFolder(dir: string, text: string): string {
    PathJoin(dir, Sanitize(StripLabel(text)))
  }

  /** Line 149 as written: `replace` removes every `"Playlist: "`, also one
      inside the playlist's own title. */
  function PlaylistFolderAsWritten(dir: string, text: string): string {
    PathJoin(dir, Sanitize(ReplaceAll(text, PlaylistLabel, "")))
  }

  /** After fetching a playlist, its folder is the download directory joined
      with the sanitised playlist title, whatever the title contains. */
  lemma PlaylistFolderOfFetched(dir: string, d: Details)
    requires d.Fetched? && d.isPlaylist
    ensures PlaylistFolder(dir, TitleText(d)) == PathJoin(dir, Sanitize(d.title))
  {
    assert TitleText(d) == PlaylistLabel + d.title;
    assert (PlaylistLabel + d.title)[..|PlaylistLabel|] == PlaylistLabel;
    assert (PlaylistLabel + d.title)[|PlaylistLabel|..] == d.title;
  }

  /** As written, a playlist titled `"Playlist: "` gets the empty folder name,
      so its files land directly in the download directory; the intended
      folder keeps the title. */
  lemma AsWrittenFolderLosesTitle(dir: string)
    ensures PlaylistFolderAsWritten(dir, PlaylistLabel + PlaylistLabel) == PathJoin(dir, "")
    ensures PlaylistFolder(dir, PlaylistLabel + PlaylistLabel) == PathJoin(dir, Sanitize(PlaylistLabel))
  {
    var text := PlaylistLabel + PlaylistLabel;
    assert OccursAt(text, PlaylistLabel, 0);
    assert FindFrom(text, PlaylistLabel, 0) == Some(0);
    assert text[|PlaylistLabel|..] == PlaylistLabel;
    assert OccursAt(PlaylistLabel, PlaylistLabel, 0);
    assert FindFrom(PlaylistLabel, PlaylistLabel, 0) == Some(0);
    assert PlaylistLabel[|PlaylistLabel|..] == "";
    assert ReplaceAll("", PlaylistLabel, "") == "";
    assert ReplaceAll(text, PlaylistLabel, "") == "";
    assert text[..|PlaylistLabel|] == PlaylistLabel;
  }

  // ---------------------------------------------------------------------
  // Numbering prefix

  /** `f"{idx+1:02d}."` for a playlist, `""` for a single video. */
  function ItemPrefix(idx: nat, isPlaylist: bool): (p: string)
    ensures !isPlaylist ==> p == ""
    ensures isPlaylist ==> |p| >= 3 && p[|p| - 1] == '.' && ParseInt(p[..|p| - 1]) == Some(idx + 1)
    ensures isPlaylist ==> AllDigits(p[..|p| - 1])
    ensures isPlaylist && idx + 1 < 100 ==> |p| == 3
    ensures isPlaylist && idx + 1 >= 10 ==> p[0] != '0'
  {
    if isPlaylist then
      var p := Pad2(idx + 1) + ".";
      assert p[..|p| - 1] == Pad2(idx + 1);
      p
    else ""
  }

  /** The extension that makes `p` one of the item's four files. */
  function ExtensionOf(p: string, dir: string, title: string): (e: string)
    requires ItemPath(p, dir, title)
    ensures p == PathJoin(dir, title + e)
  {
    if p == AudioTarget(dir, title) then ".mp3"
    else if p == OutputFile(dir, title) then ".mp4"
    else if p == VideoTemp(dir, title) then "_video.mp4"
    else "_audio.mp4"
  }

  /** A numbered file name begins with the item's own number and its dot:
      sanitising leaves digits and dots alone. */
  lemma NumberedNameStart(i: nat, t: string, e: string)
    ensures var pre := ItemPrefix(i, true);
            var name := FileTitle(pre, t) + e;
            |name| >= |pre| && forall k :: 0 <= k < |pre| ==> name[k] == pre[k]
  {
    var pre := ItemPrefix(i, true);
    forall k | 0 <= k < |pre| ensures !IsIllegal((pre + t)[k]) {
      if k < |pre| - 1 {
        assert pre[..|pre| - 1][k] == pre[k];
      }
    }
  }

  /** Names of two different playlist items differ, whatever their titles
      and extensions, and neither is absolute. */
  lemma NumberedNamesDiffer(i: nat, j: nat, t1: string, t2: string, e1: string, e2: string)
    requires i != j
    ensures var u, w := FileTitle(ItemPrefix(i, true), t1) + e1, FileTitle(ItemPrefix(j, true), t2) + e2;
            && u != w && |u| > 0 && |w| > 0 && u[0] != '/' && w[0] != '/'
  {
    var pi, pj := ItemPrefix(i, true), ItemPrefix(j, true);
    NumberedNameStart(i, t1, e1);
    NumberedNameStart(j, t2, e2);
    assert pi[..|pi| - 1] != pj[..|pj| - 1];
    DifferentStarts(pi, pj, FileTitle(pi, t1) + e1, FileTitle(pj, t2) + e2);
  }

  /** Strings that begin with different numbers followed by a dot differ,
      and a string beginning with a digit is not absolute. */
  lemma DifferentStarts(pi: string, pj: string, u: string, w: string)
    requires |pi| >= 2 && |pj| >= 2 && pi[|pi| - 1] == '.' && pj[|pj| - 1] == '.'
    requires AllDigits(pi[..|pi| - 1]) && AllDigits(pj[..|pj| - 1]) && pi[..|pi| - 1] != pj[..|pj| - 1]
    requires |u| >= |pi| && forall k :: 0 <= k < |pi| ==> u[k] == pi[k]
    requires |w| >= |pj| && forall k :: 0 <= k < |pj| ==> w[k] == pj[k]
    ensures u != w && u[0] != '/' && w[0] != '/'
  {
    assert pi[..|pi| - 1][0] == pi[0] && pj[..|pj| - 1][0] == pj[0];
    if |pi| == |pj| {
      var k :| 0 <= k < |pi| - 1 && pi[..|pi| - 1][k] != pj[..|pj| - 1][k];
      assert u[k] != w[k];
    } else if |pi| < |pj| {
      var k := |pi| - 1;
      assert pj[..|pj| - 1][k] == pj[k];
      assert u[k] != w[k];
    } else {
      var k := |pj| - 1;
      assert pi[..|pi| - 1][k] == pi[k];
      assert u[k] != w[k];
    }
  }

  /** Two different items of a playlist never share a file: not the target,
      and not a temporary file of the merge. */
  lemma PlaylistItemsDisjoint(dir: string, i: nat, j: nat, t1: string, t2: string, p: string)
    requires i != j
    ensures ItemPath(p, dir, FileTitle(ItemPrefix(i, true), t1)) ==>
              !ItemPath(p, dir, FileTitle(ItemPrefix(j, true), t2))
  {
    var a, b := FileTitle(ItemPrefix(i, true), t1), FileTitle(ItemPrefix(j, true), t2);
    if ItemPath(p, dir, a) {
      var e := ExtensionOf(p, dir, a);
      NumberedPathsDiffer(dir, i, j, t1, t2, e, ".mp3");
      NumberedPathsDiffer(dir, i, j, t1, t2, e, ".mp4");
      NumberedPathsDiffer(dir, i, j, t1, t2, e, "_video.mp4");
      NumberedPathsDiffer(dir, i, j, t1, t2, e, "_audio.mp4");
    }
  }

  lemma NumberedPathsDiffer(dir: string, i: nat, j: nat, t1: string, t2: string, e1: string, e2: string)
    requires i != j
    ensures PathJoin(dir, FileTitle(ItemPrefix(i, true), t1) + e1) != PathJoin(dir, FileTitle(ItemPrefix(j, true), t2) + e2)
  {
    NumberedNamesDiffer(i, j, t1, t2, e1, e2);
    PathJoinInjective(dir, FileTitle(ItemPrefix(i, true), t1) + e1, FileTitle(ItemPrefix(j, true), t2) + e2);
  }

  // ---------------------------------------------------------------------
  // Batch driver

  const DownloadingStatus: string := "Downloading..."
  const CompletedStatus: string := "\U{2714} Completed"
  const FailedPrefix: string := "\U{274C} FAILED - "

  /** What the worker posts to the interface. */
  datatype UiEvent =
    | SetStatus(index: nat, status: string)
    | ResetProgress
    | ShowError(title: string, error: string)
    | Finalize

  /** The status an item ends with: completed, or failed with the first 50
      characters of the error text. */
  function FinalStatus(result: Option<string>): (st: string)
    ensures result.None? ==> st == CompletedStatus
    ensures result.Some? ==> st == FailedPrefix + Take(result.value, 50) && |st| <= |FailedPrefix| + 50
  {
    match result
    case None => CompletedStatus
    case Some(e) => FailedPrefix + Take(e, 50)
  }

  /** The arguments `download` receives for one item. */
  datatype Job = Job(video: Video, quality: string, mode: string, savePath: string, prefix: string)

  function Titles(videos: seq<Video>): (ts: seq<string>)
    ensures |ts| == |videos| && forall i :: 0 <= i < |videos| ==> ts[i] == videos[i].title
  {
    seq(|videos|, i requires 0 <= i < |videos| => videos[i].title)
  }

  /** The list as the interface thread leaves it after handling `events` in
      order. */
  function ApplyEvents(lines: seq<string>, events: seq<UiEvent>): (r: seq<string>)
    ensures |r| == |lines|
    decreases |events|
  {
    if |events| == 0 then lines
    else
      var before := ApplyEvents(lines, events[..|events| - 1]);
      match events[|events| - 1]
      case SetStatus(i, st) => Update(before, i, st)
      case _ => before
  }

  lemma {:induction false} ApplyEventsAppend(lines: seq<string>, a: seq<UiEvent>, b: seq<UiEvent>)
    ensures ApplyEvents(lines, a + b) == ApplyEvents(ApplyEvents(lines, a), b)
    decreases |b|
  {
    if |b| == 0 {
      assert a + b == a;
    } else {
      assert (a + b)[..|a + b| - 1] == a + b[..|b| - 1];
      ApplyEventsAppend(lines, a, b[..|b| - 1]);
    }
  }

  /** The events one item produces: "Downloading...", a progress reset, the
      final status, and an error dialog when it failed. */
  function ItemEvents(idx: nat, video: Video, result: Option<string>): seq<UiEvent> {
    [SetStatus(idx, DownloadingStatus), ResetProgress, SetStatus(idx, FinalStatus(result))]
    + (if result.Some? then [ShowError(video.title, result.value)] else [])
  }

  /** An item's line rewritten to "Downloading..." and then to its final
      status; the other lines are untouched. */
  function ItemLines(lines: seq<string>, idx: nat, result: Option<string>): (r: seq<string>)
    ensures |r| == |lines|
    ensures forall k :: 0 <= k < |lines| && k != idx ==> r[k] == lines[k]
  {
    Update(Update(lines, idx, DownloadingStatus), idx, FinalStatus(result))
  }

  /** One item's events rewrite its line twice and leave the others alone. */
  lemma ApplyItemEvents(lines: seq<string>, idx: nat, video: Video, result: Option<string>)
    ensures ApplyEvents(lines, ItemEvents(idx, video, result)) == ItemLines(lines, idx, result)
  {
    var e := ItemEvents(idx, video, result);
    var first3 := [SetStatus(idx, DownloadingStatus), ResetProgress, SetStatus(idx, FinalStatus(result))];
    assert first3[..2][..1] == [SetStatus(idx, DownloadingStatus)];
    assert first3[..2][..1][..0] == [];
    assert ApplyEvents(lines, first3[..2][..1]) == Update(lines, idx, DownloadingStatus);
    assert ApplyEvents(lines, first3[..2]) == Update(lines, idx, DownloadingStatus);
    assert ApplyEvents(lines, first3) == Update(Update(lines, idx, DownloadingStatus), idx, FinalStatus(result));
    if result.Some? {
      assert e[..|e| - 1] == first3;
    } else {
      assert e == first3;
    }
  }

  /** `download_logic` with the playlist folder computed as intended. The
      outcome of each item's `download` call (`None` when it returned, the
      exception text when it raised) is the input `results`. */
  method DownloadLogic(videos: seq<Video>, mode: string, quality: string, downloadDir: string,
                       titleText: string, results: seq<Option<string>>, lines0: seq<string>)
    returns (jobs: seq<Job>, events: seq<UiEvent>, lines: seq<string>)
    requires |results| == |videos|
    // every item is downloaded, in input order, with the shared settings
    ensures |jobs| == |videos|
    ensures forall i :: 0 <= i < |videos| ==>
              jobs[i] == Job(videos[i], quality, mode,
                             if |videos| > 1 then PlaylistFolder(downloadDir, titleText) else downloadDir,
                             ItemPrefix(i, |videos| > 1))
    // the batch is finalised exactly once, after everything else
    ensures |events| >= 1 && events[|events| - 1] == Finalize
    ensures forall k :: 0 <= k < |events| - 1 ==> events[k] != Finalize
    // status updates come in item order, and every failure is reported
    ensures forall a, b :: 0 <= a < b < |events| && events[a].SetStatus? && events[b].SetStatus? ==>
              events[a].index <= events[b].index
    ensures forall i :: 0 <= i < |videos| && results[i].Some? ==> ShowError(videos[i].title, results[i].value) in events
    // the list shows the posted updates, and each listed item ends completed or failed
    ensures lines == ApplyEvents(lines0, events)
    ensures lines0 == InitialLines(Titles(videos)) ==>
              forall i :: 0 <= i < |videos| ==>
                lines[i] == Pad2(i + 1) + ". " + videos[i].title + Sep + FinalStatus(results[i])
  {
    var isPlaylist := |videos| > 1;
    var base := if isPlaylist then PlaylistFolder(downloadDir, titleText) else downloadDir;
    jobs, events, lines := RunItems(videos, mode, quality, base, isPlaylist, results, lines0);
    ApplyEventsAppend(lines0, events, [Finalize]);
    assert ApplyEvents(lines, [Finalize]) == lines by {
      assert [Finalize][..0] == [];
    }
    events := events + [Finalize];
  }

  /** The loop of `download_logic`: each item in turn is marked as
      downloading, handed to `download`, and marked with its outcome. */
  method RunItems(videos: seq<Video>, mode: string, quality: string, base: string, isPlaylist: bool,
                  results: seq<Option<string>>, lines0: seq<string>)
    returns (jobs: seq<Job>, events: seq<UiEvent>, lines: seq<string>)
    requires |results| == |videos|
    ensures |jobs| == |videos|
    ensures forall i :: 0 <= i < |videos| ==> jobs[i] == Job(videos[i], quality, mode, base, ItemPrefix(i, isPlaylist))
    ensures PostedBefore(events, |videos|)
    ensures Reported(events, videos, results, |videos|)
    ensures lines == ApplyEvents(lines0, events)
    ensures ListShows(lines0, lines, videos, results, |videos|)
  {
    jobs, events, lines := [], [], lines0;
    ghost var planned := seq(|videos|, k requires 0 <= k < |videos| =>
                               Job(videos[k], quality, mode, base, ItemPrefix(k, isPlaylist)));
    var i := 0;
    while i < |videos|
      invariant 0 <= i <= |videos|
      invariant jobs == planned[..i]
      invariant PostedBefore(events, i)
      invariant Reported(events, videos, results, i)
      invariant lines == ApplyEvents(lines0, events)
      invariant ListShows(lines0, lines, videos, results, i)
    {
      var block := ItemEvents(i, videos[i], results[i]);
      ItemEventsKeepOrder(events, i, videos[i], results[i]);
      ItemEventsReport(events, videos, results, i);
      SliceSnoc(planned, i);
      ApplyEventsAppend(lines0, events, block);
      ApplyItemEvents(lines, i, videos[i], results[i]);
      ItemLinesStep(lines0, lines, videos, results, i);
      events := events + block;
      lines := ItemLines(lines, i, results[i]);
      jobs := jobs + [Job(videos[i], quality, mode, base, ItemPrefix(i, isPlaylist))];
      i := i + 1;
    }
    assert jobs == planned;
  }

  lemma SliceSnoc<T>(s: seq<T>, i: nat)
    requires i < |s|
    ensures s[..i + 1] == s[..i] + [s[i]]
  {
  }

  /** The events posted while items before `i` were processed: no
      finalisation yet, and status updates in item order, all for items
      before `i`. */
  predicate PostedBefore(events: seq<UiEvent>, i: nat) {
    && (forall k :: 0 <= k < |events| ==> events[k] != Finalize)
    && (forall k :: 0 <= k < |events| && events[k].SetStatus? ==> events[k].index < i)
    && (forall a, b :: 0 <= a < b < |events| && events[a].SetStatus? && events[b].SetStatus? ==>
          events[a].index <= events[b].index)
  }

  lemma ItemEventsKeepOrder(events: seq<UiEvent>, i: nat, video: Video, result: Option<string>)
    requires PostedBefore(events, i)
    ensures PostedBefore(events + ItemEvents(i, video, result), i + 1)
  {
    var all := events + ItemEvents(i, video, result);
    forall k | |events| <= k < |all| && all[k].SetStatus? ensures all[k].index == i {
    }
  }

  /** Every failure among the first `i` items has its error dialog. */
  predicate Reported(events: seq<UiEvent>, videos: seq<Video>, results: seq<Option<string>>, i: nat)
    requires i <= |videos| == |results|
  {
    forall k :: 0 <= k < i && results[k].Some? ==> ShowError(videos[k].title, results[k].value) in events
  }

  lemma ItemEventsReport(events: seq<UiEvent>, videos: seq<Video>, results: seq<Option<string>>, i: nat)
    requires i < |videos| == |results| && Reported(events, videos, results, i)
    ensures Reported(events + ItemEvents(i, videos[i], results[i]), videos, results, i + 1)
  {
    var all := events + ItemEvents(i, videos[i], results[i]);
    forall k | 0 <= k < i + 1 && results[k].Some? ensures ShowError(videos[k].title, results[k].value) in all {
      if k < i {
        var j :| 0 <= j < |events| && events[j] == ShowError(videos[k].title, results[k].value);
        assert all[j] == events[j];
      } else {
        assert all[|events| + 3] == ShowError(videos[i].title, results[i].value);
      }
    }
  }

  /** The list after the first `i` items: the rest is as it started, and when
      it started as the initial listing, every processed item shows its number,
      title and final status. */
  predicate ListShows(lines0: seq<string>, lines: seq<string>, videos: seq<Video>,
                      results: seq<Option<string>>, i: nat)
    requires i <= |videos| == |results|
  {
    && |lines| == |lines0|
    && (forall k :: i <= k < |lines| ==> lines[k] == lines0[k])
    && (lines0 == InitialLines(Titles(videos)) ==>
          forall k :: 0 <= k < i ==>
            lines[k] == Pad2(k + 1) + ". " + videos[k].title + Sep + FinalStatus(results[k]))
  }

  lemma ItemLinesStep(lines0: seq<string>, lines: seq<string>, videos: seq<Video>,
                      results: seq<Option<string>>, i: nat)
    requires i < |videos| == |results| && ListShows(lines0, lines, videos, results, i)
    ensures ListShows(lines0, ItemLines(lines, i, results[i]), videos, results, i + 1)
  {
    var next := ItemLines(lines, i, results[i]);
    if lines0 == InitialLines(Titles(videos)) {
      var p := Pad2(i + 1) + ". " + videos[i].title;
      assert lines[i] == InitialLine(i + 1, videos[i].title);
      FinishLine(lines, i, p, results[i]);
      forall k | 0 <= k < i + 1
        ensures next[k] == Pad2(k + 1) + ". " + videos[k].title + Sep + FinalStatus(results[k])
      {
        if k < i {
          assert next[k] == lines[k];
        }
      }
    }
  }

  /** A pending line, rewritten to "Downloading..." and then to its final
      status, keeps its number and title. */
  lemma FinishLine(lines: seq<string>, i: nat, p: string, result: Option<string>)
    requires i < |lines| && lines[i] == p + Sep + Pending
    ensures ItemLines(lines, i, result)[i] == p + Sep + FinalStatus(result)
  {
    PendingIsPlain();
    NoSpaceIsPlain(DownloadingStatus);
    UpdateRewritesStatus(lines, i, p, Pending, DownloadingStatus);
    UpdateRewritesStatus(Update(lines, i, DownloadingStatus), i, p, DownloadingStatus, FinalStatus(result));
  }

  const HelpersAttributeError: string := "'YouTubeHandler' object has no attribute 'helpers'"

  lemma InitialLineOf(videos: seq<Video>, i: nat)
    requires i < |videos|
    ensures InitialLines(Titles(videos))[i] == Pad2(i + 1) + ". " + videos[i].title + Sep + Pending
  {
    var ts := Titles(videos);
    assert ts[i] == videos[i].title;
    assert InitialLines(ts)[i] == InitialLine(i + 1, ts[i]);
  }

  /** An item's line rewritten to "Downloading..." and then to its final
      status with the as-written cut. */
  function ItemLinesAsWritten(lines: seq<string>, idx: nat, result: Option<string>): (r: seq<string>)
    ensures |r| == |lines|
    ensures forall k :: 0 <= k < |lines| && k != idx ==> r[k] == lines[k]
  {
    UpdateAsWritten(UpdateAsWritten(lines, idx, DownloadingStatus), idx, FinalStatus(result))
  }

  /** A pending line rewritten twice with the as-written cut keeps its number
      and title when the text before the status does not end in `" -"`. */
  lemma AsWrittenFinishLine(lines: seq<string>, i: nat, p: string, result: Option<string>)
    requires i < |lines| && lines[i] == p + Sep + Pending && !EndsWithDash(p)
    ensures ItemLinesAsWritten(lines, i, result)[i] == p + Sep + FinalStatus(result)
  {
    PendingIsPlain();
    NoSpaceIsPlain(DownloadingStatus);
    AsWrittenCutOnPlain(p, Pending);
    AsWrittenCutOnPlain(p, DownloadingStatus);
  }

  lemma AsWrittenSingleLine(video: Video, lines0: seq<string>, result: Option<string>)
    ensures lines0 == InitialLines(Titles([video])) && !EndsWithDash(Pad2(1) + ". " + video.title) ==>
              ItemLinesAsWritten(lines0, 0, result)[0] == Pad2(1) + ". " + video.title + Sep + FinalStatus(result)
  {
    if lines0 == InitialLines(Titles([video])) && !EndsWithDash(Pad2(1) + ". " + video.title) {
      InitialLineOf([video], 0);
      AsWrittenFinishLine(lines0, 0, Pad2(1) + ". " + video.title, result);
    }
  }

  /** A single item's events end in the one finalisation and report its
      failure. */
  lemma SingleEvents(video: Video, result: Option<string>)
    ensures var e := ItemEvents(0, video, result) + [Finalize];
            && e[|e| - 1] == Finalize
            && (forall k :: 0 <= k < |e| - 1 ==> e[k] != Finalize)
            && (result.Some? ==> ShowError(video.title, result.value) in e)
  {
    var e := ItemEvents(0, video, result) + [Finalize];
    if result.Some? {
      assert e[3] == ShowError(video.title, result.value);
    }
  }

  /** The loop of `download_logic` for a single video, with the as-written
      cut of `_update_listbox_on_main_thread`. */
  method RunSingleAsWritten(video: Video, mode: string, quality: string, downloadDir: string,
                            result: Option<string>, lines0: seq<string>)
    returns (jobs: seq<Job>, events: seq<UiEvent>, lines: seq<string>)
    ensures jobs == [Job(video, quality, mode, downloadDir, "")]
    ensures |events| >= 1 && events[|events| - 1] == Finalize
    ensures forall k :: 0 <= k < |events| - 1 ==> events[k] != Finalize
    ensures result.Some? ==> ShowError(video.title, result.value) in events
    ensures |lines| == |lines0| && forall k :: 1 <= k < |lines| ==> lines[k] == lines0[k]
    ensures lines0 == InitialLines(Titles([video])) && !EndsWithDash(Pad2(1) + ". " + video.title) ==>
              lines[0] == Pad2(1) + ". " + video.title + Sep + FinalStatus(result)
  {
    jobs := [Job(video, quality, mode, downloadDir, ItemPrefix(0, false))];
    events := ItemEvents(0, video, result) + [Finalize];
    lines := ItemLinesAsWritten(lines0, 0, result);
    SingleEvents(video, result);
    AsWrittenSingleLine(video, lines0, result);
  }

  /** `download_logic` as written: for more than one item, line 148 looks up a
      `helpers` attribute the handler does not have, so the worker dies before
      the first item; nothing is downloaded, no status changes and the batch is
      never finalised. A single video goes through the loop once, and its line
      is rewritten with the as-written cut. */
  method DownloadLogicAsWritten(videos: seq<Video>, mode: string, quality: string, downloadDir: string,
                                titleText: string, results: seq<Option<string>>, lines0: seq<string>)
    returns (jobs: seq<Job>, events: seq<UiEvent>, lines: seq<string>, crash: Option<string>)
    requires |results| == |videos|
    ensures |videos| > 1 ==> jobs == [] && events == [] && lines == lines0 && crash == Some(HelpersAttributeError)
    ensures |videos| <= 1 ==> crash.None? && |events| >= 1 && events[|events| - 1] == Finalize
                              && forall k :: 0 <= k < |events| - 1 ==> events[k] != Finalize
    ensures |videos| == 0 ==> jobs == [] && lines == lines0
    ensures |videos| == 1 ==> jobs == [Job(videos[0], quality, mode, downloadDir, "")]
    ensures |videos| == 1 && results[0].Some? ==> ShowError(videos[0].title, results[0].value) in events
    // only the one line changes; it keeps number and title unless the text
    // before its status ends in " -"
    ensures |lines| == |lines0| && forall k :: 1 <= k < |lines| ==> lines[k] == lines0[k]
    ensures |videos| == 1 && lines0 == InitialLines(Titles(videos)) && !EndsWithDash(Pad2(1) + ". " + videos[0].title) ==>
              lines[0] == Pad2(1) + ". " + videos[0].title + Sep + FinalStatus(results[0])
  {
    if |videos| > 1 {
      return [], [], lines0, Some(HelpersAttributeError);
    }
    crash := None;
    if |videos| == 0 {
      return [], [Finalize], lines0, None;
    }
    assert videos == [videos[0]];
    jobs, events, lines := RunSingleAsWritten(videos[0], mode, quality, downloadDir, results[0], lines0);
  }
}

=== FILE: fetch.dfy ===
/**
  `fetch_details`: classify a URL as a playlist or a single video and collect
  what the interface needs from it. The library's network lookups are not
  visible; their answers (or the text of the exception they raise) are
  parameters.
*/
module Fetch {
  import opened Text
  import opened Streams

  /** A video as the library describes it. */
  datatype Video = Video(title: string, thumbnailUrl: string, streams: seq<Stream>)

  /** A playlist as the library describes it. */
  datatype Playlist = Playlist(title: string, videos: seq<Video>)

  /** What a lookup produces: a value or the text of the exception raised. */
  datatype Lookup<T> = Found(value: T) | Raised(error: string)

  /** The dictionary returned by `fetch_details`. */
  datatype Details =
    | Fetched(isPlaylist: bool, title: string, videos: seq<Video>,
              firstStreams: seq<Stream>, thumbnailUrl: string)
    | FetchFailed(error: string)

  const PlaylistMarker: string := "playlist"
  const EmptyPlaylistError: string := "Playlist is empty or invalid."

  /** `fetch_details(url)`, where `asPlaylist` and `asVideo` are the answers
      the library gives for `Playlist(url)` and `YouTube(url)`. */
  function FetchDetails(url: string, asPlaylist: Lookup<Playlist>, asVideo: Lookup<Video>): (d: Details)
    ensures d.Fetched? ==> d.isPlaylist == Contains(url, PlaylistMarker)
    ensures d.Fetched? ==> |d.videos| >= 1
                           && d.firstStreams == d.videos[0].streams
                           && d.thumbnailUrl == d.videos[0].thumbnailUrl
    ensures Contains(url, PlaylistMarker) ==>
              match asPlaylist
              case Raised(e) => d == FetchFailed(e)
              case Found(p) =>
                if |p.videos| == 0 then d == FetchFailed(EmptyPlaylistError)
                else d.Fetched? && d.title == p.title && d.videos == p.videos
    ensures !Contains(url, PlaylistMarker) ==>
              match asVideo
              case Raised(e) => d == FetchFailed(e)
              case Found(v) => d.Fetched? && d.title == v.title && d.videos == [v]
  {
    if Contains(url, PlaylistMarker) then
      match asPlaylist
      case Raised(e) => FetchFailed(e)
      case Found(p) =>
        if |p.videos| == 0 then FetchFailed(EmptyPlaylistError)
        else Fetched(true, p.title, p.videos, p.videos[0].streams, p.videos[0].thumbnailUrl)
    else
      match asVideo
      case Raised(e) => FetchFailed(e)
      case Found(v) => Fetched(false, v.title, [v], v.streams, v.thumbnailUrl)
  }

  /** A URL with a `list=` query but without the word `playlist` (such as a
      watch URL inside a playlist) is fetched as a single video. */
  lemma WatchUrlIsSingleVideo(v: Video, p: Lookup<Playlist>)
    ensures FetchDetails("https://www.youtube.com/watch?v=x&list=PL1", p, Found(v)) == Fetched(false, v.title, [v], v.streams, v.thumbnailUrl)
  {
    var url := "https://www.youtube.com/watch?v=x&list=PL1";
    assert !Contains(url, PlaylistMarker) by {
      forall i | 0 <= i <= |url| ensures !OccursAt(url, PlaylistMarker, i) {
        if i + 8 <= |url| {
          assert url[i..i + 8][0] == url[i] && url[i..i + 8][1] == url[i + 1];
        }
      }
    }
  }
}

=== FILE: handler.dfy ===
/**
  The download side of the handler: stream selection for the audio and video
  paths, the file names and muxer command line, and the effect of transfers,
  merge and temporary-file removal on an abstract file system (the set of
  existing paths). Transfers, the muxer and `os.remove` are not visible; how
  each of them ends is a parameter.
*/
module Handler {
  import opened Wrappers
  import opened Text
  import opened Helpers
  import opened Streams
  import opened Quality
  import opened Fetch

  // ---------------------------------------------------------------------
  // Stream selection

  /** What the handler decides to transfer for one item. */
  datatype Plan =
    | AudioPlan(s: Stream)
    | ProgressivePlan(s: Stream)
    | AdaptivePlan(v: Stream, a: Stream)
    | PlanError(msg: string)

  const NoAudioError: string := "No audio stream found."

  function StreamsNotFoundError(quality: string): string {
    "Could not find separate video/audio streams for " + quality + "."
  }

  const AnyAudio: Filter := Filter(AudioOnly, None, None)

  function ExactAudio(quality: string): Filter { Filter(AudioOnly, None, Some(quality)) }
  function ProgressiveAt(quality: string): Filter { Filter(Progressive, Some(quality), None) }
  function VideoOnlyAt(quality: string): Filter { Filter(VideoOnly, Some(quality), None) }

  /** `filter(only_audio=True).order_by("abr").desc().first()`. */
  function BestAudio(ss: seq<Stream>, rank: Rank): (r: Option<Stream>)
    ensures r.Some? ==> r.value in ss && r.value.kind == AudioOnly && r.value.abr.Some?
    ensures r.Some? ==> forall j :: 0 <= j < |ss| && Ordered(ss[j], AnyAudio, ByAbr) ==>
                          rank(ss[j].abr.value) <= rank(r.value.abr.value)
    ensures r.None? <==> forall j :: 0 <= j < |ss| ==> !(ss[j].kind == AudioOnly && ss[j].abr.Some?)
  {
    var i := BestIndex(ss, AnyAudio, ByAbr, rank);
    At(ss, i)
  }

  /** `_download_audio`'s choice: the first audio-only stream whose bitrate
      equals the requested label, else the audio-only stream of highest
      bitrate, else the error. */
  function SelectAudio(ss: seq<Stream>, quality: string, rank: Rank): (p: Plan)
    ensures p.AudioPlan? || p == PlanError(NoAudioError)
    ensures p.AudioPlan? ==> p.s in ss && p.s.kind == AudioOnly && p.s.abr.Some?
    ensures p.PlanError? <==> forall j :: 0 <= j < |ss| ==> !(ss[j].kind == AudioOnly && ss[j].abr.Some?)
    ensures forall k :: 0 <= k < |ss| && Matches(ss[k], ExactAudio(quality)) ==>
              p.AudioPlan? && p.s.abr == Some(quality)
              && exists i :: 0 <= i <= k && ss[i] == p.s && forall j :: 0 <= j < i ==> !Matches(ss[j], ExactAudio(quality))
    ensures p.AudioPlan? && p.s.abr != Some(quality) ==>
              forall j :: 0 <= j < |ss| && ss[j].kind == AudioOnly && ss[j].abr.Some? ==>
                rank(ss[j].abr.value) <= rank(p.s.abr.value)
  {
    match FirstIndex(ss, ExactAudio(quality))
    case Some(i) => AudioPlan(ss[i])
    case None =>
      match BestAudio(ss, rank)
      case Some(s) => AudioPlan(s)
      case None => PlanError(NoAudioError)
  }

  /** `_download_video`'s choice: a progressive stream at exactly the requested
      resolution; otherwise a video-only stream at exactly that resolution
      together with the best audio-only stream; otherwise the error. */
  function SelectVideo(ss: seq<Stream>, quality: string, rank: Rank): (p: Plan)
    ensures p.ProgressivePlan? || p.AdaptivePlan? || p == PlanError(StreamsNotFoundError(quality))
    ensures p.ProgressivePlan? <==> exists k :: 0 <= k < |ss| && Matches(ss[k], ProgressiveAt(quality))
    ensures p.ProgressivePlan? ==>
              exists i :: 0 <= i < |ss| && ss[i] == p.s && Matches(p.s, ProgressiveAt(quality))
                          && forall j :: 0 <= j < i ==> !Matches(ss[j], ProgressiveAt(quality))
    ensures p.AdaptivePlan? ==>
              && p.v in ss && p.v.kind == VideoOnly && p.v.res == Some(quality)
              && p.a in ss && p.a.kind == AudioOnly && p.a.abr.Some?
              && forall j :: 0 <= j < |ss| && ss[j].kind == AudioOnly && ss[j].abr.Some? ==>
                   rank(ss[j].abr.value) <= rank(p.a.abr.value)
    ensures p.PlanError? <==>
              && (forall j :: 0 <= j < |ss| ==> !Matches(ss[j], ProgressiveAt(quality)))
              && ((forall j :: 0 <= j < |ss| ==> !Matches(ss[j], VideoOnlyAt(quality)))
                  || (forall j :: 0 <= j < |ss| ==> !(ss[j].kind == AudioOnly && ss[j].abr.Some?)))
  {
    match FirstIndex(ss, ProgressiveAt(quality))
    case Some(i) => ProgressivePlan(ss[i])
    case None =>
      var video := At(ss, BestIndex(ss, VideoOnlyAt(quality), ByResolution, rank));
      var audio := BestAudio(ss, rank);
      if video.Some? && audio.Some? then AdaptivePlan(video.value, audio.value)
      else PlanError(StreamsNotFoundError(quality))
  }

  /** Every stream the video path uses has exactly the requested resolution:
      there is no fallback to another one. */
  lemma NoResolutionFallback(ss: seq<Stream>, quality: string, rank: Rank)
    requires forall j :: 0 <= j < |ss| ==> ss[j].res != Some(quality)
    ensures SelectVideo(ss, quality, rank) == PlanError(StreamsNotFoundError(quality))
  {
    assert forall s :: s in ss ==> s.res != Some(quality);
  }

  // ---------------------------------------------------------------------
  // File names and the muxer command line

  /** `os.path.join(dir, name)` with POSIX separators. */
  function PathJoin(dir: string, name: string): string {
    if |name| > 0 && name[0] == '/' then name
    else if dir == "" || dir[|dir| - 1] == '/' then dir + name
    else dir + "/" + name
  }

  function AudioTarget(dir: string, title: string): string { PathJoin(dir, title + ".mp3") }
  function OutputFile(dir: string, title: string): string { PathJoin(dir, title + ".mp4") }
  function VideoTemp(dir: string, title: string): string { PathJoin(dir, title + "_video.mp4") }
  function AudioTemp(dir: string, title: string): string { PathJoin(dir, title + "_audio.mp4") }

  /** The muxer command: overwrite, the two inputs, stream copy, the output. */
  function MergeArgv(dir: string, title: string): seq<string> {
    ["ffmpeg", "-y", "-i", VideoTemp(dir, title), "-i", AudioTemp(dir, title), "-c", "copy", OutputFile(dir, title)]
  }

  /** For names that agree on being absolute, joining different names to the
      same directory gives different paths. */
  lemma PathJoinInjective(dir: string, x: string, y: string)
    requires |x| > 0 && |y| > 0 && (x[0] == '/' <==> y[0] == '/')
    requires x != y
    ensures PathJoin(dir, x) != PathJoin(dir, y)
  {
    if x[0] != '/' {
      var pre := if dir == "" || dir[|dir| - 1] == '/' then dir else dir + "/";
      assert PathJoin(dir, x) == pre + x && PathJoin(dir, y) == pre + y;
      assert x == (pre + x)[|pre|..] && y == (pre + y)[|pre|..];
    }
  }

  /** The output, the two temporary files and the audio target are four
      different paths, whatever the directory and title. */
  lemma FileNamesDistinct(dir: string, title: string)
    ensures VideoTemp(dir, title) != AudioTemp(dir, title)
    ensures VideoTemp(dir, title) != OutputFile(dir, title)
    ensures AudioTemp(dir, title) != OutputFile(dir, title)
    ensures AudioTarget(dir, title) != OutputFile(dir, title)
    ensures AudioTarget(dir, title) != VideoTemp(dir, title)
    ensures AudioTarget(dir, title) != AudioTemp(dir, title)
  {
    var n := |title|;
    var v, a, o, m := title + "_video.mp4", title + "_audio.mp4", title + ".mp4", title + ".mp3";
    assert v[0] == '/' <==> a[0] == '/';
    assert v[0] == '/' <==> o[0] == '/';
    assert v[0] == '/' <==> m[0] == '/';
    assert v[n + 1] != a[n + 1];
    assert m[n + 3] != o[n + 3];
    assert |v| != |o| && |a| != |o| && |m| != |v|;
    PathJoinInjective(dir, v, a);
    PathJoinInjective(dir, v, o);
    PathJoinInjective(dir, a, o);
    PathJoinInjective(dir, m, o);
    PathJoinInjective(dir, m, v);
    PathJoinInjective(dir, m, a);
  }

  // ---------------------------------------------------------------------
  // Transfers, merge and clean-up on an abstract file system

  /** The exceptions the code distinguishes, each with its `str(e)`. */
  datatype Exc =
    | FileNotFound(text: string)   // FileNotFoundError
    | CalledProcess(text: string)  // subprocess.CalledProcessError
    | OsError(text: string)        // any other OSError
    | OtherError(text: string)     // anything else

  /** How one transfer ends; a failed one may leave a partial file behind. */
  datatype Transfer = Saved | TransferRaised(e: Exc, partial: bool)

  /** How one muxer run ends. */
  datatype Muxer = Merged | MuxerRaised(e: Exc)

  /** The outcomes of one download-and-merge attempt: the two transfers, the
      muxer, and for each temporary file the text of the OSError its removal
      raises, if it does. */
  datatype Attempt = Attempt(video: Transfer, audio: Transfer, muxer: Muxer,
                             removeVideo: Option<string>, removeAudio: Option<string>)

  /** What the handler does to the outside world. */
  datatype Action = Get(s: Stream, path: string) | RunMuxer(argv: seq<string>) | Remove(path: string)

  /** The file system afterwards, the actions taken, and the text of the
      exception that leaves the call, if any. */
  datatype Outcome = Outcome(fs: set<string>, log: seq<Action>, error: Option<string>)

  const FfmpegMissingError: string :=
    "FFmpeg not found. Please ensure FFmpeg is installed and added to your system PATH. "
    + "Download from: https://ffmpeg.org/download.html"

  const FfmpegMergeFailedPrefix: string := "FFmpeg merge failed: "

  const FfmpegRetryError: string :=
    "FFmpeg failed to merge files. Ensure FFmpeg is installed and in your system's PATH."

  /** The file system after a transfer to `path`. */
  function Transferred(fs: set<string>, path: string, t: Transfer): set<string> {
    match t
    case Saved => fs + {path}
    case TransferRaised(_, partial) => if partial then fs + {path} else fs
  }

  /** Number of muxer runs in a log. */
  function MuxerRuns(log: seq<Action>): nat {
    if |log| == 0 then 0 else (if log[0].RunMuxer? then 1 else 0) + MuxerRuns(log[1..])
  }

  /** Number of stream transfers (`Get` actions) in a log. */
  function Gets(log: seq<Action>): nat {
    if |log| == 0 then 0 else (if log[0].Get? then 1 else 0) + Gets(log[1..])
  }

  lemma CountsOne(x: Action)
    ensures MuxerRuns([x]) == if x.RunMuxer? then 1 else 0
    ensures Gets([x]) == if x.Get? then 1 else 0
  {
    assert [x][1..] == [];
  }

  lemma {:induction false} CountsAppend(a: seq<Action>, b: seq<Action>)
    ensures MuxerRuns(a + b) == MuxerRuns(a) + MuxerRuns(b)
    ensures Gets(a + b) == Gets(a) + Gets(b)
    decreases |a|
  {
    if |a| == 0 {
      assert a + b == b;
    } else {
      assert (a + b)[1..] == a[1..] + b;
      CountsAppend(a[1..], b);
    }
  }

  /** The state inside the first `try` block when it ends: file system, log
      and the exception that ended it, if any. */
  datatype Step = Step(fs: set<string>, log: seq<Action>, exc: Option<Exc>)

  /** Lines 198-218: transfer video, transfer audio, run the muxer; the first
      exception ends the block. */
  function TryBlock(v: Stream, a: Stream, dir: string, title: string, env: Attempt, fs: set<string>): (st: Step)
    ensures forall p :: p != VideoTemp(dir, title) && p != AudioTemp(dir, title) && p != OutputFile(dir, title) ==>
              (p in st.fs <==> p in fs)
    ensures st.exc.None? <==> env.video.Saved? && env.audio.Saved? && env.muxer.Merged?
    ensures st.exc.None? ==> OutputFile(dir, title) in st.fs
    ensures env.video.Saved? && env.audio.Saved? && env.muxer.MuxerRaised? ==> st.exc == Some(env.muxer.e)
    ensures env.video.TransferRaised? ==> st.exc == Some(env.video.e)
    ensures env.video.Saved? && env.audio.TransferRaised? ==> st.exc == Some(env.audio.e)
    ensures MuxerRuns(st.log) == if env.video.Saved? && env.audio.Saved? then 1 else 0
    ensures Gets(st.log) == if env.video.Saved? then 2 else 1
    ensures forall k :: 0 <= k < |st.log| && st.log[k].RunMuxer? ==> st.log[k].argv == MergeArgv(dir, title)
  {
    var vt, at, out := VideoTemp(dir, title), AudioTemp(dir, title), OutputFile(dir, title);
    var fs1 := Transferred(fs, vt, env.video);
    var log1 := [Get(v, vt)];
    if env.video.TransferRaised? then Step(fs1, log1, Some(env.video.e))
    else
      var fs2 := Transferred(fs1, at, env.audio);
      var log2 := log1 + [Get(a, at)];
      CountsAppend(log1, [Get(a, at)]);
      CountsOne(Get(v, vt));
      CountsOne(Get(a, at));
      if env.audio.TransferRaised? then Step(fs2, log2, Some(env.audio.e))
      else
        var log3 := log2 + [RunMuxer(MergeArgv(dir, title))];
        assert log3 == [Get(v, vt), Get(a, at), RunMuxer(MergeArgv(dir, title))];
        CountsAppend(log2, [RunMuxer(MergeArgv(dir, title))]);
        CountsOne(RunMuxer(MergeArgv(dir, title)));
        match env.muxer
        case Merged => Step(fs2 + {out}, log3, None)
        case MuxerRaised(e) => Step(fs2, log3, Some(e))
  }

  /** The `except` clauses of lines 219-225. */
  function FirstBlockMessage(e: Exc): string {
    match e
    case FileNotFound(_) => FfmpegMissingError
    case CalledProcess(t) => FfmpegMergeFailedPrefix + t
    case OsError(t) => t
    case OtherError(t) => t
  }

  /** A log extended by at most one removal keeps its muxer runs. */
  lemma AppendRemoval(log: seq<Action>, log': seq<Action>, path: string, dir: string, title: string)
    requires log' == log || log' == log + [Remove(path)]
    requires forall k :: 0 <= k < |log| && log[k].RunMuxer? ==> log[k].argv == MergeArgv(dir, title)
    ensures MuxerRuns(log') == MuxerRuns(log) && Gets(log') == Gets(log)
    ensures forall k :: 0 <= k < |log'| && log'[k].RunMuxer? ==> log'[k].argv == MergeArgv(dir, title)
  {
    if log' != log {
      CountsAppend(log, [Remove(path)]);
      CountsOne(Remove(path));
    }
  }

  /** Removal inside the guarded `finally` of lines 226-234: only a file that
      exists is removed, and a failing removal is logged and ignored. */
  function RemoveGuarded(fs: set<string>, log: seq<Action>, path: string, failure: Option<string>): (r: (set<string>, seq<Action>))
    ensures path in r.0 ==> failure.Some?
    ensures forall p :: p != path ==> (p in r.0 <==> p in fs)
  {
    if path !in fs then (fs, log)
    else ((if failure.None? then fs - {path} else fs), log + [Remove(path)])
  }

  /** The adaptive path with the duplicated block of lines 236-251 removed:
      one attempt, with guaranteed clean-up of both temporary files. */
  function RunAdaptive(v: Stream, a: Stream, dir: string, title: string, env: Attempt, fs: set<string>): (o: Outcome)
    // clean-up: a temporary file survives only if removing it failed
    ensures VideoTemp(dir, title) in o.fs ==> env.removeVideo.Some?
    ensures AudioTemp(dir, title) in o.fs ==> env.removeAudio.Some?
    // nothing but the three files of this item is touched
    ensures forall p :: p != VideoTemp(dir, title) && p != AudioTemp(dir, title) && p != OutputFile(dir, title) ==>
              (p in o.fs <==> p in fs)
    // success needs both transfers and the merge, and yields the output file
    ensures o.error.None? <==> env.video.Saved? && env.audio.Saved? && env.muxer.Merged?
    ensures o.error.None? ==> OutputFile(dir, title) in o.fs
    // the muxer runs once exactly when both transfers succeed, with this command
    ensures MuxerRuns(o.log) == if env.video.Saved? && env.audio.Saved? then 1 else 0
    ensures Gets(o.log) == if env.video.Saved? then 2 else 1
    ensures forall k :: 0 <= k < |o.log| && o.log[k].RunMuxer? ==>
              o.log[k].argv == ["ffmpeg", "-y", "-i", VideoTemp(dir, title), "-i", AudioTemp(dir, title),
                                "-c", "copy", OutputFile(dir, title)]
    // how a muxer failure is reported
    ensures env.video.Saved? && env.audio.Saved? && env.muxer.MuxerRaised? && env.muxer.e.FileNotFound? ==>
              o.error == Some(FfmpegMissingError)
    ensures env.video.Saved? && env.audio.Saved? && env.muxer.MuxerRaised? && env.muxer.e.CalledProcess? ==>
              o.error == Some(FfmpegMergeFailedPrefix + env.muxer.e.text)
    // a failed transfer goes through the same handlers: a FileNotFoundError
    // there is also reported as a missing FFmpeg
    ensures env.video.TransferRaised? ==> o.error == Some(FirstBlockMessage(env.video.e))
    ensures env.video.Saved? && env.audio.TransferRaised? ==> o.error == Some(FirstBlockMessage(env.audio.e))
  {
    var vt, at := VideoTemp(dir, title), AudioTemp(dir, title);
    FileNamesDistinct(dir, title);
    var step := TryBlock(v, a, dir, title, env, fs);
    var r1 := RemoveGuarded(step.fs, step.log, vt, env.removeVideo);
    var r2 := RemoveGuarded(r1.0, r1.1, at, env.removeAudio);
    AppendRemoval(step.log, r1.1, vt, dir, title);
    AppendRemoval(r1.1, r2.1, at, dir, title);
    Outcome(r2.0, r2.1, match step.exc case None => None case Some(e) => Some(FirstBlockMessage(e)))
  }

  /** Lines 236-251 as written: after a successful first attempt, both
      transfers and the merge run again. These transfers are outside any
      `try`, so their exceptions leave without clean-up; the `finally` of the
      second merge removes files without guarding against errors, so a failed
      removal raises and skips the removal after it. */
  function SecondAttempt(v: Stream, a: Stream, dir: string, title: string, env: Attempt, fs: set<string>): (o: Outcome)
    // nothing but the three files of this item is touched
    ensures forall p :: p != VideoTemp(dir, title) && p != AudioTemp(dir, title) && p != OutputFile(dir, title) ==>
              (p in o.fs <==> p in fs)
    // a transfer's exception leaves unchanged, without clean-up
    ensures env.video.TransferRaised? ==> o.error == Some(env.video.e.text)
    ensures env.video.Saved? && env.audio.TransferRaised? ==> o.error == Some(env.audio.e.text)
    // success needs both transfers and the merge, and leaves the output
    ensures o.error.None? ==> env.video.Saved? && env.audio.Saved? && env.muxer.Merged? && OutputFile(dir, title) in o.fs
    ensures MuxerRuns(o.log) <= 1
  {
    FileNamesDistinct(dir, title);
    var o := SecondAttemptSteps(v, a, dir, title, env, fs);
    MuxerAtMostOne(o.log, 2);
    o
  }

  function SecondAttemptSteps(v: Stream, a: Stream, dir: string, title: string, env: Attempt, fs: set<string>): Outcome
  {
    var vt, at, out := VideoTemp(dir, title), AudioTemp(dir, title), OutputFile(dir, title);
    var fs1 := Transferred(fs, vt, env.video);
    var log1 := [Get(v, vt)];
    if env.video.TransferRaised? then Outcome(fs1, log1, Some(env.video.e.text))
    else
      var fs2 := Transferred(fs1, at, env.audio);
      var log2 := log1 + [Get(a, at)];
      if env.audio.TransferRaised? then Outcome(fs2, log2, Some(env.audio.e.text))
      else
        var log3 := log2 + [RunMuxer(MergeArgv(dir, title))];
        var fs3 := if env.muxer.Merged? then fs2 + {out} else fs2;
        var err := match env.muxer
          case Merged => None
          case MuxerRaised(e) => if e.FileNotFound? || e.CalledProcess? then Some(FfmpegRetryError) else Some(e.text);
        var log4 := if vt in fs3 then log3 + [Remove(vt)] else log3;
        if vt in fs3 && env.removeVideo.Some? then Outcome(fs3, log4, env.removeVideo)
        else
          var fs4 := fs3 - {vt};
          var log5 := if at in fs4 then log4 + [Remove(at)] else log4;
          if at in fs4 && env.removeAudio.Some? then Outcome(fs4, log5, env.removeAudio)
          else Outcome(fs4 - {at}, log5, err)
  }

  /** `_download_video`'s adaptive branch as written: the guarded attempt,
      then, only if it succeeded, the duplicated second attempt. */
  function RunAdaptiveAsWritten(v: Stream, a: Stream, dir: string, title: string,
                                first: Attempt, second: Attempt, fs: set<string>): (o: Outcome)
    // nothing but the three files of this item is touched
    ensures forall p :: p != VideoTemp(dir, title) && p != AudioTemp(dir, title) && p != OutputFile(dir, title) ==>
              (p in o.fs <==> p in fs)
    // a failed guarded attempt ends the call as in the corrected path
    ensures !(first.video.Saved? && first.audio.Saved? && first.muxer.Merged?) ==>
              o == RunAdaptive(v, a, dir, title, first, fs)
    // success needs both attempts to transfer and merge, and leaves the output
    ensures o.error.None? ==>
              && first.video.Saved? && first.audio.Saved? && first.muxer.Merged?
              && second.video.Saved? && second.audio.Saved? && second.muxer.Merged?
              && OutputFile(dir, title) in o.fs
    ensures MuxerRuns(o.log) <= 2
  {
    var o1 := RunAdaptive(v, a, dir, title, first, fs);
    if o1.error.Some? then o1
    else
      var o2 := SecondAttempt(v, a, dir, title, second, o1.fs);
      CountsAppend(o1.log, o2.log);
      Outcome(o2.fs, o1.log + o2.log, o2.error)
  }

  /** A log whose only possible muxer run is at position `k` has at most one. */
  lemma {:induction false} MuxerAtMostOne(log: seq<Action>, k: int)
    requires forall j :: 0 <= j < |log| && j != k ==> !log[j].RunMuxer?
    ensures MuxerRuns(log) <= if 0 <= k < |log| then 1 else 0
    decreases |log|
  {
    if |log| > 0 {
      MuxerAtMostOne(log[1..], k - 1);
    }
  }

  /** As written, a fully successful download transfers each stream twice and
      runs the muxer twice; the corrected path does each once. */
  lemma AsWrittenRunsTwice(v: Stream, a: Stream, dir: string, title: string,
                           first: Attempt, second: Attempt, fs: set<string>)
    requires first.video.Saved? && first.audio.Saved? && first.muxer.Merged?
    requires second.video.Saved? && second.audio.Saved? && second.muxer.Merged?
    ensures MuxerRuns(RunAdaptiveAsWritten(v, a, dir, title, first, second, fs).log) == 2
    ensures Gets(RunAdaptiveAsWritten(v, a, dir, title, first, second, fs).log) == 4
    ensures MuxerRuns(RunAdaptive(v, a, dir, title, first, fs).log) == 1
    ensures Gets(RunAdaptive(v, a, dir, title, first, fs).log) == 2
  {
    var o1 := RunAdaptive(v, a, dir, title, first, fs);
    var o2 := SecondAttempt(v, a, dir, title, second, o1.fs);
    SecondAttemptCounts(v, a, dir, title, second, o1.fs);
    CountsAppend(o1.log, o2.log);
  }

  lemma SecondAttemptCounts(v: Stream, a: Stream, dir: string, title: string, env: Attempt, fs: set<string>)
    requires env.video.Saved? && env.audio.Saved?
    ensures MuxerRuns(SecondAttempt(v, a, dir, title, env, fs).log) == 1
    ensures Gets(SecondAttempt(v, a, dir, title, env, fs).log) == 2
  {
    var vt, at := VideoTemp(dir, title), AudioTemp(dir, title);
    var log3 := [Get(v, vt)] + [Get(a, at)] + [RunMuxer(MergeArgv(dir, title))];
    CountsAppend([Get(v, vt)], [Get(a, at)]);
    CountsAppend([Get(v, vt)] + [Get(a, at)], [RunMuxer(MergeArgv(dir, title))]);
    CountsOne(Get(v, vt));
    CountsOne(Get(a, at));
    CountsOne(RunMuxer(MergeArgv(dir, title)));
    CountsAppend(log3, [Remove(vt)]);
    CountsAppend(log3 + [Remove(vt)], [Remove(at)]);
    CountsAppend(log3, [Remove(at)]);
    CountsOne(Remove(vt));
    CountsOne(Remove(at));
  }

  /** As written, when the first attempt succeeds and the repeated audio
      transfer fails, the video temporary file stays on disk, even though no
      removal failed; the corrected path never leaves it (see `RunAdaptive`). */
  lemma AsWrittenLeaksVideoTemp(v: Stream, a: Stream, dir: string, title: string,
                                first: Attempt, second: Attempt, fs: set<string>)
    requires first.video.Saved? && first.audio.Saved? && first.muxer.Merged?
    requires second.video.Saved? && second.audio.TransferRaised?
    ensures VideoTemp(dir, title) in RunAdaptiveAsWritten(v, a, dir, title, first, second, fs).fs
    ensures RunAdaptiveAsWritten(v, a, dir, title, first, second, fs).error == Some(second.audio.e.text)
  {
    FileNamesDistinct(dir, title);
  }

  // ---------------------------------------------------------------------
  // `download`: naming and dispatch

  /** How each external step of one item's download ends. `single` is the
      transfer of the audio or progressive path; `first` and `second` are the
      two attempts of the adaptive path (the corrected path uses `first`). */
  datatype ItemEnv = ItemEnv(single: Transfer, first: Attempt, second: Attempt)

  /** The file name stem: the sanitised concatenation of prefix and title. */
  function FileTitle(prefix: string, title: string): string {
    Sanitize(prefix + title)
  }

  /** The selection `download` makes: audio exactly for the mode `"Audio"`. */
  function SelectFor(ss: seq<Stream>, quality: string, mode: string, rank: Rank): Plan {
    if mode == AudioMode then SelectAudio(ss, quality, rank) else SelectVideo(ss, quality, rank)
  }

  /** A single transfer to `path`; its exception propagates unchanged. */
  function Single(s: Stream, path: string, t: Transfer, fs: set<string>): Outcome {
    Outcome(Transferred(fs, path, t), [Get(s, path)], if t.Saved? then None else Some(t.e.text))
  }

  /** Carry out a plan; `asWritten` selects the duplicated adaptive branch. */
  function Execute(plan: Plan, dir: string, title: string, env: ItemEnv, fs: set<string>, asWritten: bool): (o: Outcome)
    ensures plan.PlanError? ==> o == Outcome(fs, [], Some(plan.msg))
    ensures plan.AudioPlan? ==> o.log == [Get(plan.s, AudioTarget(dir, title))] && o.fs <= fs + {AudioTarget(dir, title)}
    ensures plan.ProgressivePlan? ==> o.log == [Get(plan.s, OutputFile(dir, title))] && o.fs <= fs + {OutputFile(dir, title)}
    ensures !plan.AdaptivePlan? ==> MuxerRuns(o.log) == 0
    // a single transfer succeeds or raises, and its exception leaves unchanged
    ensures (plan.AudioPlan? || plan.ProgressivePlan?) ==> (o.error.None? <==> env.single.Saved?)
    ensures (plan.AudioPlan? || plan.ProgressivePlan?) && env.single.TransferRaised? ==> o.error == Some(env.single.e.text)
    ensures plan.AudioPlan? && env.single.Saved? ==> AudioTarget(dir, title) in o.fs
    ensures plan.ProgressivePlan? && env.single.Saved? ==> OutputFile(dir, title) in o.fs
    ensures plan.AdaptivePlan? && !asWritten ==>
              (o.error.None? <==> env.first.video.Saved? && env.first.audio.Saved? && env.first.muxer.Merged?)
              && (o.error.None? ==> OutputFile(dir, title) in o.fs)
    ensures plan.AdaptivePlan? && !asWritten ==>
              forall k :: 0 <= k < |o.log| && o.log[k].Get? ==>
                (o.log[k].s == plan.v && o.log[k].path == VideoTemp(dir, title))
                || (o.log[k].s == plan.a && o.log[k].path == AudioTemp(dir, title))
    ensures forall p :: !ItemPath(p, dir, title) ==> (p in o.fs <==> p in fs)
    ensures plan.AdaptivePlan? && !asWritten ==>
              (VideoTemp(dir, title) in o.fs ==> env.first.removeVideo.Some?)
              && (AudioTemp(dir, title) in o.fs ==> env.first.removeAudio.Some?)
  {
    if plan.AudioPlan? then CountsOne(Get(plan.s, AudioTarget(dir, title))); ExecuteRaw(plan, dir, title, env, fs, asWritten)
    else if plan.ProgressivePlan? then CountsOne(Get(plan.s, OutputFile(dir, title))); ExecuteRaw(plan, dir, title, env, fs, asWritten)
    else if plan.AdaptivePlan? && !asWritten then
      AdaptiveFetchPaths(plan.v, plan.a, dir, title, env.first, fs); ExecuteRaw(plan, dir, title, env, fs, asWritten)
    else ExecuteRaw(plan, dir, title, env, fs, asWritten)
  }

  function ExecuteRaw(plan: Plan, dir: string, title: string, env: ItemEnv, fs: set<string>, asWritten: bool): Outcome {
    match plan
    case PlanError(m) => Outcome(fs, [], Some(m))
    case AudioPlan(s) => Single(s, AudioTarget(dir, title), env.single, fs)
    case ProgressivePlan(s) => Single(s, OutputFile(dir, title), env.single, fs)
    case AdaptivePlan(v, a) =>
      if asWritten then RunAdaptiveAsWritten(v, a, dir, title, env.first, env.second, fs)
      else RunAdaptive(v, a, dir, title, env.first, fs)
  }

  /** The four paths that belong to one item. */
  predicate ItemPath(p: string, dir: string, title: string) {
    p == AudioTarget(dir, title) || p == OutputFile(dir, title) || p == VideoTemp(dir, title) || p == AudioTemp(dir, title)
  }

  /** `download(video, quality, mode, save_path, prefix)` with the corrected
      adaptive branch. */
  function Download(v: Video, quality: string, mode: string, savePath: string, prefix: string,
                    env: ItemEnv, fs: set<string>, rank: Rank): (o: Outcome)
    // naming: every file touched is one of this item's paths under the sanitised name
    ensures forall p :: !ItemPath(p, savePath, FileTitle(prefix, v.title)) ==> (p in o.fs <==> p in fs)
    ensures forall k :: 0 <= k < |o.log| && o.log[k].Get? ==>
              o.log[k].s in v.streams && ItemPath(o.log[k].path, savePath, FileTitle(prefix, v.title))
    // it raises exactly when the selection fails, the transfer raises, or
    // (adaptive) a transfer or the merge raises; on success the file exists
    ensures var plan := SelectFor(v.streams, quality, mode, rank);
            && (plan.PlanError? ==> o.error == Some(plan.msg) && o.fs == fs)
            && ((plan.AudioPlan? || plan.ProgressivePlan?) ==> (o.error.None? <==> env.single.Saved?))
            && ((plan.AudioPlan? || plan.ProgressivePlan?) && env.single.TransferRaised? ==> o.error == Some(env.single.e.text))
            && (plan.AdaptivePlan? ==>
                  (o.error.None? <==> env.first.video.Saved? && env.first.audio.Saved? && env.first.muxer.Merged?))
    ensures o.error.None? ==>
              (if mode == AudioMode then AudioTarget(savePath, FileTitle(prefix, v.title))
               else OutputFile(savePath, FileTitle(prefix, v.title))) in o.fs
  {
    var title := FileTitle(prefix, v.title);
    FileNamesDistinct(savePath, title);
    Execute(SelectFor(v.streams, quality, mode, rank), savePath, title, env, fs, false)
  }

  /** Mode `"Audio"` takes the audio path: it writes only the `.mp3` target
      and never merges. */
  lemma DownloadAudioMode(v: Video, quality: string, savePath: string, prefix: string,
                          env: ItemEnv, fs: set<string>, rank: Rank)
    ensures var o := Download(v, quality, AudioMode, savePath, prefix, env, fs, rank);
            && MuxerRuns(o.log) == 0
            && forall k :: 0 <= k < |o.log| && o.log[k].Get? ==>
                 o.log[k].path == AudioTarget(savePath, FileTitle(prefix, v.title))
  {
  }

  /** Every other mode takes the video path: it never writes the `.mp3`
      target, and with a progressive stream at the requested resolution it
      transfers once, merges nothing and creates no temporary file. */
  lemma DownloadVideoMode(v: Video, quality: string, mode: string, savePath: string, prefix: string,
                          env: ItemEnv, fs: set<string>, rank: Rank)
    requires mode != AudioMode
    ensures var o := Download(v, quality, mode, savePath, prefix, env, fs, rank);
            && (forall k :: 0 <= k < |o.log| && o.log[k].Get? ==>
                  o.log[k].path != AudioTarget(savePath, FileTitle(prefix, v.title)))
            && (SelectVideo(v.streams, quality, rank).ProgressivePlan? ==>
                  && MuxerRuns(o.log) == 0 && |o.log| == 1
                  && o.fs <= fs + {OutputFile(savePath, FileTitle(prefix, v.title))})
  {
    FileNamesDistinct(savePath, FileTitle(prefix, v.title));
  }

  /** The temporary files of the adaptive path survive an item only when
      their removal failed. */
  lemma DownloadLeavesNoTemps(v: Video, quality: string, mode: string, savePath: string, prefix: string,
                              env: ItemEnv, fs: set<string>, rank: Rank)
    ensures var o := Download(v, quality, mode, savePath, prefix, env, fs, rank);
            && (VideoTemp(savePath, FileTitle(prefix, v.title)) in o.fs - fs ==> env.first.removeVideo.Some?)
            && (AudioTemp(savePath, FileTitle(prefix, v.title)) in o.fs - fs ==> env.first.removeAudio.Some?)
  {
    FileNamesDistinct(savePath, FileTitle(prefix, v.title));
  }


  /** The adaptive path transfers only its two chosen streams, to the two
      temporary files. */
  lemma AdaptiveFetchPaths(v: Stream, a: Stream, dir: string, title: string, env: Attempt, fs: set<string>)
    ensures forall k :: 0 <= k < |RunAdaptive(v, a, dir, title, env, fs).log| && RunAdaptive(v, a, dir, title, env, fs).log[k].Get? ==>
              var act := RunAdaptive(v, a, dir, title, env, fs).log[k];
              (act.s == v && act.path == VideoTemp(dir, title)) || (act.s == a && act.path == AudioTemp(dir, title))
  {
  }

  /** `download` as written: the same naming and dispatch, with the duplicated
      adaptive branch. */
  function DownloadAsWritten(v: Video, quality: string, mode: string, savePath: string, prefix: string,
                             env: ItemEnv, fs: set<string>, rank: Rank): (o: Outcome)
    ensures mode == AudioMode ==> MuxerRuns(o.log) == 0
  {
    Execute(SelectFor(v.streams, quality, mode, rank), savePath, FileTitle(prefix, v.title), env, fs, true)
  }
}

=== FILE: helpers.dfy ===
/**
  Filename sanitising: every character that is illegal in a file name is
  replaced by a hyphen, one for one, and nothing else is touched.
*/
module Helpers {

  /** The character class `[<>:"/\\|?*]`. */
  predicate IsIllegal(c: char) {
    c == '<' || c == '>' || c == ':' || c == '"' || c == '/'
    || c == '\\' || c == '|' || c == '?' || c == '*'
  }

  /** No illegal character anywhere in `s`. */
  predicate IsClean(s: string) {
    forall i :: 0 <= i < |s| ==> !IsIllegal(s[i])
  }

  /** The replacement of one character. */
  function SanitizeChar(c: char): char {
    if IsIllegal(c) then '-' else c
  }

  /** `sanitize_filename`: a character-wise map, written as a recursion over
      the string; the contract states it position by position. */
  function Sanitize(s: string): (r: string)
    ensures |r| == |s|
    ensures forall i :: 0 <= i < |s| && IsIllegal(s[i]) ==> r[i] == '-'
    ensures forall i :: 0 <= i < |s| && !IsIllegal(s[i]) ==> r[i] == s[i]
    ensures IsClean(r)
  {
    if |s| == 0 then "" else [SanitizeChar(s[0])] + Sanitize(s[1..])
  }

  /** A string without illegal characters is left exactly as it is. */
  lemma {:induction false} SanitizeKeepsClean(s: string)
    requires IsClean(s)
    ensures Sanitize(s) == s
  {
    if |s| > 0 {
      assert IsClean(s[1..]) by {
        forall i | 0 <= i < |s[1..]| ensures !IsIllegal(s[1..][i]) {
          assert s[1..][i] == s[i + 1];
        }
      }
      SanitizeKeepsClean(s[1..]);
    }
  }

  /** Sanitising twice is the same as sanitising once: the hyphen it writes
      is not itself illegal. */
  lemma SanitizeIdempotent(s: string)
    ensures Sanitize(Sanitize(s)) == Sanitize(s)
  {
    SanitizeKeepsClean(Sanitize(s));
  }

  /** Sanitising distributes over concatenation, so a prefix survives intact
      at the front of the sanitised whole. */
  lemma {:induction false} SanitizeConcat(a: string, b: string)
    ensures Sanitize(a + b) == Sanitize(a) + Sanitize(b)
    decreases |a|
  {
    if |a| > 0 {
      assert (a + b)[1..] == a[1..] + b;
      SanitizeConcat(a[1..], b);
    } else {
      assert a + b == b;
    }
  }
}

=== FILE: listbox.dfy ===
/**
  The item list shown in the window, one line per video: `"NN. title - status"`.
  A status update rewrites the text after the separator `" - "` of one line.
  The list is modelled as its sequence of lines.
*/
module Listbox {
  import opened Wrappers
  import opened Text

  const Sep: string := " - "
  const Pending: string := "Pending"

  /** Line `n` (1-based) as first shown: `f"{n:02d}. {title} - Pending"`. */
  function InitialLine(n: nat, title: string): (r: string)
    ensures StatusPrefix(r) == Pad2(n) + ". " + title
    ensures ParseInt(r[..|Pad2(n)|]) == Some(n as int)
  {
    var p := Pad2(n) + ". " + title;
    PendingIsPlain();
    PrefixOfStatusLine(p, Pending);
    assert (p + Sep + Pending)[..|Pad2(n)|] == Pad2(n);
    p + Sep + Pending
  }

  /** The list after a successful fetch, numbered from 1 in input order. */
  function InitialLines(titles: seq<string>): seq<string> {
    seq(|titles|, i requires 0 <= i < |titles| => InitialLine(i + 1, titles[i]))
  }

  // ---------------------------------------------------------------------
  // The status rewrite as written: split at every separator, keep all pieces
  // but the last

  /** `" - ".join(line.split(" - ")[:-1])`. */
  function StatusPrefixAsWritten(line: string): (p: string)
    ensures Contains(line, Sep) ==> exists tail :: line == p + Sep + tail && !Contains(tail, Sep)
    ensures !Contains(line, Sep) ==> p == ""
  {
    var parts := Split(line, Sep);
    AsWrittenPieces(line);
    if |parts| >= 2 then
      var p := Join(parts[..|parts| - 1], Sep);
      assert line == p + Sep + parts[|parts| - 1];
      p
    else Join(parts[..0], Sep)
  }

  /** The pieces of a split: all but the last, rejoined, are followed by the
      separator and the last piece, which holds no separator; a single piece
      is the whole line. */
  lemma AsWrittenPieces(line: string)
    ensures var parts := Split(line, Sep);
            && (|parts| >= 2 ==> line == Join(parts[..|parts| - 1], Sep) + Sep + parts[|parts| - 1])
            && !Contains(parts[|parts| - 1], Sep)
            && (|parts| == 1 ==> parts == [line])
  {
    var parts := Split(line, Sep);
    JoinSplit(line, Sep);
    SplitLastFree(line, Sep);
    if |parts| >= 2 {
      JoinSnoc(parts, Sep);
    } else {
      assert parts == [parts[0]];
      assert Join(parts, Sep) == parts[0];
    }
  }

  /** `_update_listbox_on_main_thread` as written. An index past the end raises
      `IndexError` inside the callback, which leaves the text unchanged. */
  function UpdateAsWritten(lines: seq<string>, index: nat, status: string): (r: seq<string>)
    ensures |r| == |lines|
    ensures forall j :: 0 <= j < |lines| && j != index ==> r[j] == lines[j]
    ensures index < |lines| ==> exists p :: p <= lines[index] && r[index] == p + Sep + status
  {
    if index < |lines| then lines[index := StatusPrefixAsWritten(lines[index]) + Sep + status] else lines
  }

  /** `p` ends in `" -"`, so that `" - "` could straddle its end and a
      following separator. */
  predicate EndsWithDash(p: string) {
    |p| >= 2 && p[|p| - 2] == ' ' && p[|p| - 1] == '-'
  }

  /** Before the end of `p`, `p + " - " + st` has a separator exactly where
      `p` has one, and at the end of `p` it has one. */
  lemma JointOccurrences(p: string, st: string)
    requires !EndsWithDash(p)
    ensures OccursAt(p + Sep + st, Sep, |p|)
    ensures forall j :: 0 <= j < |p| ==> (OccursAt(p + Sep + st, Sep, j) <==> OccursAt(p, Sep, j))
  {
    var line := p + Sep + st;
    assert line[|p|..|p| + 3] == Sep;
    forall j | 0 <= j < |p| ensures OccursAt(line, Sep, j) <==> OccursAt(p, Sep, j) {
      if j + 3 <= |p| {
        assert line[j..j + 3] == p[j..j + 3];
      } else if j == |p| - 1 {
        var w := line[j..j + 3];
        assert w[1] == ' ' && Sep[1] == '-';
        assert w != Sep;
      } else {
        var w := line[j..j + 3];
        assert w[0] == p[|p| - 2] && w[1] == p[|p| - 1];
        assert w[0] != Sep[0] || w[1] != Sep[1];
        assert w != Sep;
      }
    }
  }

  lemma SplitWithoutSep(st: string)
    requires !Contains(st, Sep)
    ensures Split(st, Sep) == [st]
  {
  }

  /** Where the left-to-right scan finds a separator in `p + " - " + st`:
      exactly where it finds one in `p`, then at the end of `p`. */
  lemma {:induction false} SplitAtJoint(p: string, st: string)
    requires !EndsWithDash(p) && !Contains(st, Sep)
    ensures Split(p + Sep + st, Sep) == Split(p, Sep) + [st]
    decreases |p|
  {
    var line := p + Sep + st;
    JointOccurrences(p, st);
    match FindFrom(p, Sep, 0)
    case None =>
      FirstOccurrence(line, Sep, |p|);
      assert line[..|p|] == p && line[|p| + 3..] == st;
      SplitWithoutSep(st);
    case Some(i) =>
      FirstOccurrence(line, Sep, i);
      var rest := p[i + 3..];
      assert line[..i] == p[..i];
      assert line[i + 3..] == rest + Sep + st;
      assert !EndsWithDash(rest);
      SplitAtJoint(rest, st);
  }

  /** The as-written cut is right when the old status holds no separator and
      the text before it does not end in `" -"`. */
  lemma AsWrittenCutOnPlain(p: string, st: string)
    requires !EndsWithDash(p) && !Contains(st, Sep)
    ensures StatusPrefixAsWritten(p + Sep + st) == p
  {
    SplitAtJoint(p, st);
    var parts := Split(p + Sep + st, Sep);
    assert parts[..|parts| - 1] == Split(p, Sep);
    JoinSplit(p, Sep);
  }

  // ---------------------------------------------------------------------
  // The status rewrite as intended: cut at the last separator

  /** The text before the last `" - "` (`line.rsplit(" - ", 1)`), or `""`
      when there is none. */
  function StatusPrefix(line: string): (p: string)
    ensures Contains(line, Sep) ==>
              && OccursAt(line, Sep, |p|)
              && line == p + Sep + line[|p| + |Sep|..]
              && forall j :: |p| < j ==> !OccursAt(line, Sep, j)
    ensures !Contains(line, Sep) ==> p == ""
  {
    match FindLast(line, Sep)
    case None => ""
    case Some(k) =>
      assert line == line[..k] + line[k..k + 3] + line[k + 3..];
      line[..k]
  }

  /** A status that the rewrite can find again: it holds no separator and does
      not begin with `"- "` (which would make `" - "` straddle its start). */
  predicate PlainStatus(st: string) {
    !Contains(st, Sep) && !(|st| >= 2 && st[0] == '-' && st[1] == ' ')
  }

  /** The status rewrite with the cut at the last separator. */
  function Update(lines: seq<string>, index: nat, status: string): (r: seq<string>)
    ensures |r| == |lines|
    ensures forall j :: 0 <= j < |lines| && j != index ==> r[j] == lines[j]
    ensures index < |lines| ==> exists q :: q <= lines[index] && r[index] == q + Sep + status
    ensures index < |lines| && !Contains(lines[index], Sep) ==> r[index] == Sep + status
  {
    if index < |lines| then
      var q := StatusPrefix(lines[index]);
      assert q <= lines[index] by {
        if Contains(lines[index], Sep) {
          assert lines[index][..|q|] == q;
        }
      }
      lines[index := q + Sep + status]
    else lines
  }

  /** Rewriting a line `p + " - " + st` with a plain status keeps `p`,
      whatever `p` contains, and touches no other line. */
  lemma UpdateRewritesStatus(lines: seq<string>, index: nat, p: string, st: string, status: string)
    requires index < |lines| && lines[index] == p + Sep + st && PlainStatus(st)
    ensures Update(lines, index, status)[index] == p + Sep + status
  {
    PrefixOfStatusLine(p, st);
  }

  /** A line `p + " - " + st` with a plain status is cut exactly after `p`,
      whatever `p` contains. */
  lemma PrefixOfStatusLine(p: string, st: string)
    requires PlainStatus(st)
    ensures StatusPrefix(p + Sep + st) == p
  {
    var line := p + Sep + st;
    var n := |p|;
    assert line[n..n + 3] == Sep;
    assert OccursAt(line, Sep, n);
    forall j | n < j ensures !OccursAt(line, Sep, j) {
      if j == n + 1 && j + 3 <= |line| {
        assert line[j..j + 3][0] == line[j] == '-';
      } else if j == n + 2 && j + 3 <= |line| {
        assert line[j..j + 3][1] == st[0] && line[j..j + 3][2] == st[1];
      } else if j >= n + 3 {
        OccursShift(p + Sep, st, Sep, j);
      }
    }
    var q := StatusPrefix(line);
    assert |q| == n;
    assert q == line[..n];
  }

  /** A status without spaces is plain. */
  lemma NoSpaceIsPlain(st: string)
    requires forall i :: 0 <= i < |st| ==> st[i] != ' '
    ensures PlainStatus(st)
  {
    forall i | 0 <= i <= |st| ensures !OccursAt(st, Sep, i) {
      if i + 3 <= |st| {
        assert st[i..i + 3][0] == st[i];
      }
    }
  }

  lemma PendingIsPlain()
    ensures PlainStatus(Pending)
  {
    NoSpaceIsPlain(Pending);
  }

  /** Rewriting the status of a freshly listed line keeps its number and
      title, whatever the title contains. */
  lemma UpdateKeepsTitle(titles: seq<string>, i: nat, status: string)
    requires i < |titles|
    ensures Update(InitialLines(titles), i, status)[i] == Pad2(i + 1) + ". " + titles[i] + Sep + status
  {
    PendingIsPlain();
    var p := Pad2(i + 1) + ". " + titles[i];
    assert InitialLines(titles)[i] == p + Sep + Pending;
    UpdateRewritesStatus(InitialLines(titles), i, p, Pending, status);
  }

  /** As written, the title `"-"` loses its own hyphen on the first rewrite:
      `"01. - - Pending"` becomes `"01. - Downloading..."`. The rewrite that
      cuts at the last separator keeps it. */
  lemma AsWrittenDropsTrailingDash()
    ensures UpdateAsWritten([InitialLine(1, "-")], 0, "Downloading...") == ["01." + Sep + "Downloading..."]
    ensures Update([InitialLine(1, "-")], 0, "Downloading...") == ["01. -" + Sep + "Downloading..."]
  {
    var line := InitialLine(1, "-");
    FirstLineOfDash();
    SplitOfDashLine();
    var parts := ["01.", "- Pending"];
    assert parts[..1] == ["01."];
    assert Join(parts[..1], Sep) == "01.";
    assert StatusPrefixAsWritten(line) == "01.";

    PendingIsPlain();
    UpdateRewritesStatus([line], 0, "01. -", Pending, "Downloading...");
  }

  lemma FirstLineOfDash()
    ensures InitialLine(1, "-") == "01. -" + Sep + Pending
  {
    assert NatToString(1) == "1";
    assert Pad2(1) == "01";
  }

  /** `"01. - - Pending".split(" - ") == ["01.", "- Pending"]`. */
  lemma SplitOfDashLine()
    ensures Split("01. -" + Sep + Pending, Sep) == ["01.", "- Pending"]
  {
    var line := "01. -" + Sep + Pending;
    FirstSepOfDashLine();
    assert line[6..] == "- Pending";
    DashPendingHasNoSep();
    assert Split("- Pending", Sep) == ["- Pending"];
    assert line[..3] == "01.";
  }

  lemma FirstSepOfDashLine()
    ensures FindFrom("01. -" + Sep + Pending, Sep, 0) == Some(3)
  {
    var line := "01. -" + Sep + Pending;
    assert line == "01. - - Pending";
    assert line[0..3][0] != Sep[0] && line[1..4][0] != Sep[0] && line[2..5][0] != Sep[0];
    assert OccursAt(line, Sep, 3);
  }

  lemma DashPendingHasNoSep()
    ensures FindFrom("- Pending", Sep, 0).None?
  {
    var rest := "- Pending";
    forall j | 0 <= j ensures !OccursAt(rest, Sep, j) {
      if j + 3 <= |rest| {
        assert rest[j..j + 3][1] == rest[j + 1];
        assert rest[j..j + 3][0] == rest[j];
      }
    }
  }
}

=== FILE: progress.dfy ===
/**
  The progress callback's arithmetic: bytes downloaded so far and the
  fraction shown on the progress bar. Exact rationals stand in for the
  source's floating point.
*/
module Progress {

  /** `downloaded = total - bytes_remaining`. */
  function Downloaded(total: int, remaining: int): int {
    total - remaining
  }

  /** `downloaded / total if total > 0 else 0`. */
  function Percent(total: int, remaining: int): (p: real)
    ensures total <= 0 ==> p == 0.0
    ensures total > 0 ==> p * total as real == Downloaded(total, remaining) as real
    ensures 0 <= remaining <= total ==> 0.0 <= p <= 1.0
    ensures total > 0 && remaining == 0 ==> p == 1.0
  {
    if total > 0 then
      var d, t := Downloaded(total, remaining) as real, total as real;
      Quotient(d, t);
      d / t
    else 0.0
  }

  lemma Quotient(d: real, t: real)
    requires t > 0.0
    ensures (d / t) * t == d
    ensures 0.0 <= d <= t ==> 0.0 <= d / t <= 1.0
    ensures d == t ==> d / t == 1.0
  {
    var q := d / t;
    assert q * t == d;
  }

  /** As fewer bytes remain, the fraction never goes down. */
  lemma PercentMonotone(total: int, r1: int, r2: int)
    requires r2 <= r1
    ensures Percent(total, r2) >= Percent(total, r1)
  {
    if total > 0 {
      var t := total as real;
      assert Percent(total, r2) - Percent(total, r1) == (r1 - r2) as real / t;
    }
  }

  /** 600 of 1000 bytes is 0.6, and an unknown size shows 0. */
  lemma PercentExamples()
    ensures Percent(1000, 400) == 0.6
    ensures Percent(0, 0) == 0.0
  {
  }
}

=== FILE: quality.dfy ===
/**
  `get_quality_options`: the labels offered in the quality menu. Labels are
  collected from the streams of the requested kind, made distinct, and sorted
  in descending order of the number read from each label. The source sorts a
  Python `set`, whose iteration order is unspecified; the model takes the
  labels in order of first appearance and sorts stably, which is one of the
  orders the source can produce.
*/
module Quality {
  import opened Wrappers
  import opened Text
  import opened Streams

  /** The sentinel returned when no quality can be offered. */
  const NotAvailable: string := "Not Available"

  /** The mode selector is compared with exactly this value. */
  const AudioMode: string := "Audio"

  /** The label stream `s` contributes for kind `k` and attribute `a`. */
  predicate LabelOf(s: Stream, k: Kind, a: Attr, l: string) {
    s.kind == k && HasLabel(AttrOf(s, a)) && AttrOf(s, a).value == l
  }

  /** Stream `s` is of kind `k` and has a non-empty attribute `a`. */
  predicate Contributes(s: Stream, k: Kind, a: Attr) {
    s.kind == k && HasLabel(AttrOf(s, a))
  }

  /** `[getattr(s, a) for s in streams.filter(kind) if getattr(s, a)]`. */
  function LabelsOf(ss: seq<Stream>, k: Kind, a: Attr): (r: seq<string>)
    ensures forall l :: l in r <==> exists i :: 0 <= i < |ss| && LabelOf(ss[i], k, a, l)
    decreases |ss|
  {
    if |ss| == 0 then []
    else
      var rest := LabelsOf(ss[1..], k, a);
      assert forall i :: 1 <= i < |ss| ==> ss[1..][i - 1] == ss[i];
      if Contributes(ss[0], k, a) then [AttrOf(ss[0], a).value] + rest else rest
  }

  /** The raw labels the enumeration looks at in the given mode: bitrates of
      audio-only streams, or resolutions of progressive and video-only ones. */
  function Labels(ss: seq<Stream>, mode: string): seq<string> {
    if mode == AudioMode then LabelsOf(ss, AudioOnly, ByAbr)
    else LabelsOf(ss, Progressive, ByResolution) + LabelsOf(ss, VideoOnly, ByResolution)
  }

  /** The sort key: `int(re.sub(r"\D", "", x))` for bitrates and
      `int(x[:-1])` for resolutions; `None` is the `ValueError`. */
  function KeyOf(mode: string, l: string): (r: Option<int>)
    ensures mode == AudioMode ==> (r.Some? <==> |DigitsOf(l)| >= 1)
    ensures mode == AudioMode && |DigitsOf(l)| >= 1 ==> r == Some(DigitsValue(DigitsOf(l)) as int)
    ensures mode != AudioMode && |l| <= 1 ==> r.None?
    ensures mode != AudioMode && |l| >= 2 && AllDigits(l[..|l| - 1]) ==> r == Some(DigitsValue(l[..|l| - 1]) as int)
  {
    if mode == AudioMode then ParseInt(DigitsOf(l))
    else ParseInt(if |l| == 0 then "" else l[..|l| - 1])
  }

  predicate AllParse(xs: seq<string>, mode: string) {
    forall i :: 0 <= i < |xs| ==> KeyOf(mode, xs[i]).Some?
  }

  /** The key as a plain number; only consulted on labels that parse. */
  function K(mode: string, l: string): int {
    KeyOf(mode, l).GetOr(0)
  }

  predicate Distinct(xs: seq<string>) {
    forall i, j :: 0 <= i < j < |xs| ==> xs[i] != xs[j]
  }

  predicate SortedDesc(xs: seq<string>, mode: string) {
    forall i, j :: 0 <= i < j < |xs| ==> K(mode, xs[i]) >= K(mode, xs[j])
  }

  /** Keeps the first occurrence of every label. */
  function Dedup(xs: seq<string>): (r: seq<string>)
    ensures forall l :: l in r <==> l in xs
    ensures Distinct(r)
  {
    if |xs| == 0 then []
    else
      var rest := Dedup(xs[..|xs| - 1]);
      assert forall l :: l in xs <==> l in xs[..|xs| - 1] || l == xs[|xs| - 1];
      if xs[|xs| - 1] in rest then rest else rest + [xs[|xs| - 1]]
  }

  /** Inserts `x` into a descending list after every element whose key is at
      least as large, which keeps equal keys in arrival order. */
  function Insert(mode: string, x: string, xs: seq<string>): (r: seq<string>)
    requires SortedDesc(xs, mode)
    ensures multiset(r) == multiset(xs) + multiset{x}
    ensures SortedDesc(r, mode)
  {
    if |xs| == 0 then [x]
    else if K(mode, xs[0]) >= K(mode, x) then
      var tail := Insert(mode, x, xs[1..]);
      assert xs == [xs[0]] + xs[1..];
      HeadBoundsInsert(mode, x, xs, tail);
      [xs[0]] + tail
    else
      [x] + xs
  }

  lemma HeadBoundsInsert(mode: string, x: string, xs: seq<string>, tail: seq<string>)
    requires |xs| > 0 && SortedDesc(xs, mode) && SortedDesc(tail, mode)
    requires K(mode, xs[0]) >= K(mode, x)
    requires multiset(tail) == multiset(xs[1..]) + multiset{x}
    ensures SortedDesc([xs[0]] + tail, mode)
  {
    forall k | 0 <= k < |tail| ensures K(mode, xs[0]) >= K(mode, tail[k]) {
      assert tail[k] in multiset(tail);
      if tail[k] != x {
        assert tail[k] in multiset(xs[1..]);
        var m :| 0 <= m < |xs[1..]| && xs[1..][m] == tail[k];
        assert xs[m + 1] == tail[k];
      }
    }
    var r := [xs[0]] + tail;
    forall i, j | 0 <= i < j < |r| ensures K(mode, r[i]) >= K(mode, r[j]) {
      if i > 0 {
        assert r[i] == tail[i - 1] && r[j] == tail[j - 1];
      } else {
        assert r[j] == tail[j - 1];
      }
    }
  }

  /** Python's stable `sorted(xs, key=..., reverse=True)`. */
  function SortDesc(mode: string, xs: seq<string>): (r: seq<string>)
    ensures multiset(r) == multiset(xs)
    ensures SortedDesc(r, mode)
  {
    if |xs| == 0 then []
    else
      assert xs == xs[..|xs| - 1] + [xs[|xs| - 1]];
      Insert(mode, xs[|xs| - 1], SortDesc(mode, xs[..|xs| - 1]))
  }

  /** A permutation of a list without repeats has no repeats. */
  lemma DistinctPermutation(a: seq<string>, b: seq<string>)
    requires multiset(a) == multiset(b)
    requires Distinct(a)
    ensures Distinct(b)
  {
    forall i, j | 0 <= i < j < |b| ensures b[i] != b[j] {
      if b[i] == b[j] {
        var x := b[i];
        assert multiset(b)[x] >= 2 by {
          assert b == b[..i] + [b[i]] + b[i + 1..j] + [b[j]] + b[j + 1..];
        }
        DistinctCountOne(a, x);
        assert false;
      }
    }
  }

  lemma {:induction false} DistinctCountOne(a: seq<string>, x: string)
    requires Distinct(a)
    ensures multiset(a)[x] <= 1
  {
    if |a| > 0 {
      var t := a[1..];
      assert Distinct(t);
      DistinctCountOne(t, x);
      assert a == [a[0]] + t;
      if a[0] == x {
        assert x !in t;
      }
    }
  }

  /** `get_quality_options`. Any `ValueError` from a sort key is caught and,
      like an empty result, becomes the single sentinel label. */
  function QualityOptions(ss: seq<Stream>, mode: string): (r: seq<string>)
    ensures |r| >= 1
    ensures r == [NotAvailable] <==>
              |Labels(ss, mode)| == 0 || !AllParse(Labels(ss, mode), mode)
    ensures r != [NotAvailable] ==>
              && (forall l :: l in r <==> l in Labels(ss, mode))
              && Distinct(r)
              && SortedDesc(r, mode)
              && AllParse(r, mode)
  {
    var labels := Labels(ss, mode);
    if |labels| == 0 || !AllParse(labels, mode) then [NotAvailable]
    else
      var d := Dedup(labels);
      var r := SortDesc(mode, d);
      DistinctPermutation(d, r);
      assert forall l :: l in r <==> l in d by {
        forall l ensures l in r <==> l in d {
          assert l in r <==> l in multiset(r);
        }
      }
      AllParseSubset(labels, r, mode);
      NotAvailableNeverParses(mode);
      r
  }

  lemma AllParseSubset(xs: seq<string>, ys: seq<string>, mode: string)
    requires AllParse(xs, mode) && forall l :: l in ys ==> l in xs
    ensures AllParse(ys, mode)
  {
    forall i | 0 <= i < |ys| ensures KeyOf(mode, ys[i]).Some? {
      assert ys[i] in xs;
      var k :| 0 <= k < |xs| && xs[k] == ys[i];
    }
  }

  /** The sentinel is not a label the key function accepts, so it can never be
      confused with a real quality. */
  lemma NotAvailableNeverParses(mode: string)
    ensures KeyOf(mode, NotAvailable).None?
  {
    if mode == AudioMode {
      assert DigitsOf(NotAvailable) == "" by {
        NoDigitsGivesEmpty(NotAvailable);
      }
    } else {
      var cut := NotAvailable[..|NotAvailable| - 1];
      assert cut[0] == 'N' && !IsDigit(cut[0]);
    }
  }

  lemma {:induction false} NoDigitsGivesEmpty(s: string)
    requires forall i :: 0 <= i < |s| ==> !IsDigit(s[i])
    ensures DigitsOf(s) == ""
  {
    if |s| > 0 {
      NoDigitsGivesEmpty(s[1..]);
    }
  }

  /** When no two offered labels share a key (as with the library's
      `"NNNkbps"` and `"NNNp"` labels), the options are strictly descending. */
  lemma StrictWhenKeysDistinct(ss: seq<Stream>, mode: string)
    ensures var r := QualityOptions(ss, mode);
            r != [NotAvailable]
            && (forall l1, l2 :: l1 in Labels(ss, mode) && l2 in Labels(ss, mode) && l1 != l2 ==> K(mode, l1) != K(mode, l2))
            ==> forall i, j :: 0 <= i < j < |r| ==> K(mode, r[i]) > K(mode, r[j])
  {
    var r := QualityOptions(ss, mode);
    if r != [NotAvailable] && forall l1, l2 :: l1 in Labels(ss, mode) && l2 in Labels(ss, mode) && l1 != l2 ==> K(mode, l1) != K(mode, l2) {
      forall i, j | 0 <= i < j < |r| ensures K(mode, r[i]) > K(mode, r[j]) {
        assert r[i] in Labels(ss, mode) && r[j] in Labels(ss, mode);
      }
    }
  }


  /** A bitrate label `d + "kbps"` has the key `d` reads as. */
  lemma KbpsKey(d: string)
    requires |d| >= 1 && AllDigits(d)
    ensures KeyOf(AudioMode, d + "kbps") == Some(DigitsValue(d) as int)
  {
    KbpsDigits(d);
  }

  lemma KbpsDigits(d: string)
    requires AllDigits(d)
    ensures DigitsOf(d + "kbps") == d
  {
    var kbps := "kbps";
    DigitsOfAppend(d, kbps);
    DigitsOfDigits(d);
    assert DigitsOf(kbps) == "" by {
      assert !IsDigit(kbps[0]) && !IsDigit(kbps[1]) && !IsDigit(kbps[2]) && !IsDigit(kbps[3]);
      NoDigitsGivesEmpty(kbps);
    }
    assert d + "" == d;
  }

  lemma {:induction false} DigitsOfAppend(a: string, b: string)
    ensures DigitsOf(a + b) == DigitsOf(a) + DigitsOf(b)
    decreases |a|
  {
    if |a| == 0 {
      assert a + b == b;
    } else {
      assert (a + b)[1..] == a[1..] + b;
      DigitsOfAppend(a[1..], b);
    }
  }

  lemma {:induction false} DigitsOfDigits(a: string)
    requires AllDigits(a)
    ensures DigitsOf(a) == a
  {
    if |a| > 0 {
      DigitsOfDigits(a[1..]);
    }
  }

  /** Bitrates `128kbps, 160kbps, 128kbps, 70kbps` are offered as
      `160kbps, 128kbps, 70kbps`. */
  lemma AudioExample()
    ensures QualityOptions([Stream(AudioOnly, None, Some("128kbps")), Stream(AudioOnly, None, Some("160kbps")),
                            Stream(AudioOnly, None, Some("128kbps")), Stream(AudioOnly, None, Some("70kbps"))],
                           AudioMode)
            == ["160kbps", "128kbps", "70kbps"]
  {
    var ss := [Stream(AudioOnly, None, Some("128kbps")), Stream(AudioOnly, None, Some("160kbps")),
               Stream(AudioOnly, None, Some("128kbps")), Stream(AudioOnly, None, Some("70kbps"))];
    assert ss[1..][1..][1..][1..] == [];
    var labels := ["128kbps", "160kbps", "128kbps", "70kbps"];
    assert Labels(ss, AudioMode) == labels;
    ExampleKeys();
    assert AllParse(labels, AudioMode);
    ExampleDedup();
    ExampleSort();
  }

  lemma ExampleKeys()
    ensures K(AudioMode, "128kbps") == 128 && KeyOf(AudioMode, "128kbps").Some?
    ensures K(AudioMode, "160kbps") == 160 && KeyOf(AudioMode, "160kbps").Some?
    ensures K(AudioMode, "70kbps") == 70 && KeyOf(AudioMode, "70kbps").Some?
  {
    Key128();
    Key160();
    Key70();
  }

  lemma Key128()
    ensures KeyOf(AudioMode, "128kbps") == Some(128)
  {
    assert "128" + "kbps" == "128kbps";
    KbpsKey("128");
    assert "128"[..2] == "12" && "12"[..1] == "1" && "1"[..0] == "";
    assert DigitsValue("12") == 12;
    assert DigitsValue("128") == 128;
  }

  lemma Key160()
    ensures KeyOf(AudioMode, "160kbps") == Some(160)
  {
    assert "160" + "kbps" == "160kbps";
    KbpsKey("160");
    assert "160"[..2] == "16" && "16"[..1] == "1" && "1"[..0] == "";
    assert DigitsValue("16") == 16;
    assert DigitsValue("160") == 160;
  }

  lemma Key70()
    ensures KeyOf(AudioMode, "70kbps") == Some(70)
  {
    assert "70" + "kbps" == "70kbps";
    KbpsKey("70");
    assert DigitsValue("70") == 70;
  }

  lemma ExampleDedup()
    ensures Dedup(["128kbps", "160kbps", "128kbps", "70kbps"]) == ["128kbps", "160kbps", "70kbps"]
  {
    var labels := ["128kbps", "160kbps", "128kbps", "70kbps"];
    assert labels[..3] == ["128kbps", "160kbps", "128kbps"];
    assert labels[..3][..2] == ["128kbps", "160kbps"];
    assert labels[..3][..2][..1] == ["128kbps"];
    assert "160kbps" != "128kbps" && "70kbps" != "128kbps" && "70kbps" != "160kbps";
    assert Dedup(labels[..3][..2][..1]) == ["128kbps"];
    assert Dedup(labels[..3][..2]) == ["128kbps", "160kbps"];
    assert Dedup(labels[..3]) == ["128kbps", "160kbps"];
  }

  lemma ExampleSort()
    ensures SortDesc(AudioMode, ["128kbps", "160kbps", "70kbps"]) == ["160kbps", "128kbps", "70kbps"]
  {
    var d := ["128kbps", "160kbps", "70kbps"];
    assert d[..2] == ["128kbps", "160kbps"];
    ExampleSortTwo();
    ExampleInsert70();
  }

  lemma ExampleSortTwo()
    ensures SortDesc(AudioMode, ["128kbps", "160kbps"]) == ["160kbps", "128kbps"]
  {
    var d := ["128kbps", "160kbps"];
    Key128();
    Key160();
    assert d[..1] == ["128kbps"];
    assert SortDesc(AudioMode, d[..1]) == ["128kbps"];
    assert Insert(AudioMode, "160kbps", ["128kbps"]) == ["160kbps", "128kbps"];
  }

  lemma ExampleInsert70()
    ensures SortedDesc(["160kbps", "128kbps"], AudioMode)
            && Insert(AudioMode, "70kbps", ["160kbps", "128kbps"]) == ["160kbps", "128kbps", "70kbps"]
  {
    Key160();
    Key70();
    var xs := ["160kbps", "128kbps"];
    assert xs[1..] == ["128kbps"];
    ExampleInsert70Last();
    Key128();
    assert SortedDesc(xs, AudioMode);
    assert K(AudioMode, xs[0]) >= K(AudioMode, "70kbps");
    assert Insert(AudioMode, "70kbps", xs) == [xs[0]] + Insert(AudioMode, "70kbps", xs[1..]);
  }

  lemma ExampleInsert70Last()
    ensures Insert(AudioMode, "70kbps", ["128kbps"]) == ["128kbps", "70kbps"]
  {
    Key128();
    Key70();
    var xs := ["128kbps"];
    assert xs[1..] == [];
    assert K(AudioMode, "128kbps") >= K(AudioMode, "70kbps");
    assert Insert(AudioMode, "70kbps", xs[1..]) == ["70kbps"];
  }

}

=== FILE: streams.dfy ===
/**
  Stream records and the small query language of the media library that the
  handler uses: `filter(...)`, `order_by(attr).desc()` and `first()`.
  The library's own numeric ordering of labels is not visible here; it is a
  parameter `rank`, and `order_by(attr).desc().first()` is modelled as "the
  last stream of greatest rank", which is what a stable ascending sort
  followed by a reversal yields.
*/
module Streams {
  import opened Wrappers

  /** `progressive` carries audio and video; the other two carry one track. */
  datatype Kind = Progressive | VideoOnly | AudioOnly

  /** A stream descriptor: its kind, resolution label (`"1080p"`) and audio
      bitrate label (`"128kbps"`), either of which may be absent. */
  datatype Stream = Stream(kind: Kind, res: Option<string>, abr: Option<string>)

  /** The library's ordering of labels (a numeric value read from the label). */
  type Rank = string -> int

  /** Python truthiness of an optional label: present and non-empty. */
  predicate HasLabel(o: Option<string>) {
    o.Some? && o.value != ""
  }

  /** The keyword arguments of `streams.filter(...)`: a required kind and an
      optional exact resolution or bitrate. */
  datatype Filter = Filter(kind: Kind, res: Option<string>, abr: Option<string>)

  predicate Matches(s: Stream, f: Filter) {
    && s.kind == f.kind
    && (f.res.Some? ==> s.res == f.res)
    && (f.abr.Some? ==> s.abr == f.abr)
  }

  /** The attribute named in `order_by(...)`. */
  datatype Attr = ByResolution | ByAbr

  function AttrOf(s: Stream, a: Attr): Option<string> {
    match a
    case ByResolution => s.res
    case ByAbr => s.abr
  }

  /** `order_by` keeps only the streams whose attribute is not `None`. */
  predicate Ordered(s: Stream, f: Filter, a: Attr) {
    Matches(s, f) && AttrOf(s, a).Some?
  }

  function Key(s: Stream, a: Attr, rank: Rank): int {
    match AttrOf(s, a)
    case Some(l) => rank(l)
    case None => 0
  }

  /** `streams.filter(f).first()`: index of the first matching stream. */
  function FirstIndex(ss: seq<Stream>, f: Filter): (r: Option<nat>)
    ensures r.Some? ==> r.value < |ss| && Matches(ss[r.value], f)
    ensures r.Some? ==> forall j :: 0 <= j < r.value ==> !Matches(ss[j], f)
    ensures r.None? <==> forall j :: 0 <= j < |ss| ==> !Matches(ss[j], f)
  {
    if |ss| == 0 then None
    else if Matches(ss[0], f) then Some(0)
    else match FirstIndex(ss[1..], f)
      case None => None
      case Some(k) => Some(k + 1)
  }

  /** `streams.filter(f).order_by(a).desc().first()`: index of the last
      stream whose rank is greatest among the ordered candidates. */
  function BestIndex(ss: seq<Stream>, f: Filter, a: Attr, rank: Rank): (r: Option<nat>)
    ensures r.Some? ==> r.value < |ss| && Ordered(ss[r.value], f, a)
    ensures r.Some? ==> forall j :: 0 <= j < |ss| && Ordered(ss[j], f, a) ==>
                          Key(ss[j], a, rank) <= Key(ss[r.value], a, rank)
    ensures r.Some? ==> forall j :: r.value < j < |ss| && Ordered(ss[j], f, a) ==>
                          Key(ss[j], a, rank) < Key(ss[r.value], a, rank)
    ensures r.None? <==> forall j :: 0 <= j < |ss| ==> !Ordered(ss[j], f, a)
    decreases |ss|
  {
    if |ss| == 0 then None
    else
      var n := |ss| - 1;
      var prev := BestIndex(ss[..n], f, a, rank);
      if Ordered(ss[n], f, a) && (prev.None? || Key(ss[prev.value], a, rank) <= Key(ss[n], a, rank))
      then Some(n)
      else prev
  }

  /** Wraps an index into the stream it names. */
  function At(ss: seq<Stream>, i: Option<nat>): (r: Option<Stream>)
    requires i.Some? ==> i.value < |ss|
  {
    match i
    case None => None
    case Some(k) => Some(ss[k])
  }
}

=== FILE: text.dfy ===
/**
  The handful of Python `str` operations the application relies on, written
  out over `string` (a `seq<char>`): substring test (`in`), `find`/`rfind`,
  `split` and `join` with a non-empty separator, `replace`, slicing with
  `[:n]`, and the subset of `int(...)` and `f"{n:02d}"` the program uses.
*/
module Text {
  import opened Wrappers

  /** `pat` occurs in `s` starting at index `i`. */
  predicate OccursAt(s: string, pat: string, i: int) {
    0 <= i && i + |pat| <= |s| && s[i..i + |pat|] == pat
  }

  /** Python's `pat in s`. */
  predicate Contains(s: string, pat: string) {
    exists i :: 0 <= i <= |s| && OccursAt(s, pat, i)
  }

  /** Python's `s.find(pat, k)`: the leftmost occurrence at or after `k`. */
  function FindFrom(s: string, pat: string, k: nat): (r: Option<nat>)
    ensures r.Some? ==> k <= r.value && OccursAt(s, pat, r.value)
    ensures r.Some? ==> forall j :: k <= j < r.value ==> !OccursAt(s, pat, j)
    ensures r.None? ==> forall j :: k <= j ==> !OccursAt(s, pat, j)
    decreases |s| - k
  {
    if k + |pat| > |s| then None
    else if s[k..k + |pat|] == pat then Some(k)
    else FindFrom(s, pat, k + 1)
  }

  /** The leftmost occurrence is the one `find` reports. */
  lemma FirstOccurrence(s: string, pat: string, i: nat)
    requires OccursAt(s, pat, i) && forall j :: 0 <= j < i ==> !OccursAt(s, pat, j)
    ensures FindFrom(s, pat, 0) == Some(i)
  {
  }

  /** Python's `s.rfind(pat)` restricted to start indices `<= k`. */
  function FindLastUpTo(s: string, pat: string, k: int): (r: Option<nat>)
    ensures r.Some? ==> r.value <= k && OccursAt(s, pat, r.value)
    ensures r.Some? ==> forall j :: r.value < j <= k ==> !OccursAt(s, pat, j)
    ensures r.None? ==> forall j :: j <= k ==> !OccursAt(s, pat, j)
    decreases k + 1
  {
    if k < 0 then None
    else if OccursAt(s, pat, k) then Some(k)
    else FindLastUpTo(s, pat, k - 1)
  }

  /** Python's `s.rfind(pat)`: the rightmost occurrence anywhere in `s`. */
  function FindLast(s: string, pat: string): (r: Option<nat>)
    ensures r.Some? ==> OccursAt(s, pat, r.value)
    ensures r.Some? ==> forall j :: r.value < j ==> !OccursAt(s, pat, j)
    ensures r.None? <==> !Contains(s, pat)
  {
    FindLastUpTo(s, pat, |s| - |pat|)
  }

  /** Python's `s.split(sep)` for a non-empty separator: cut at the leftmost
      occurrence, then continue after it. */
  function Split(s: string, sep: string): (parts: seq<string>)
    requires |sep| > 0
    ensures |parts| >= 1
    decreases |s|
  {
    match FindFrom(s, sep, 0)
    case None => [s]
    case Some(i) => [s[..i]] + Split(s[i + |sep|..], sep)
  }

  /** Python's `sep.join(parts)`. */
  function Join(parts: seq<string>, sep: string): string
  {
    if |parts| == 0 then ""
    else if |parts| == 1 then parts[0]
    else parts[0] + sep + Join(parts[1..], sep)
  }

  /** Python's `s.replace(pat, repl)` for a non-empty `pat`: every
      non-overlapping occurrence, scanned from the left, is replaced. */
  function ReplaceAll(s: string, pat: string, repl: string): (r: string)
    requires |pat| > 0
    ensures !Contains(s, pat) ==> r == s
    decreases |s|
  {
    match FindFrom(s, pat, 0)
    case None => s
    case Some(i) => s[..i] + repl + ReplaceAll(s[i + |pat|..], pat, repl)
  }

  /** Python's `s[:n]` for `n >= 0`. */
  function Take(s: string, n: nat): (r: string)
    ensures |r| == if |s| < n then |s| else n
    ensures r <= s
  {
    if |s| <= n then s else s[..n]
  }

  // ---------------------------------------------------------------------
  // Lemmas about split and join

  /** Splitting and joining with the same separator gives the string back. */
  lemma {:induction false} JoinSplit(s: string, sep: string)
    requires |sep| > 0
    ensures Join(Split(s, sep), sep) == s
    decreases |s|
  {
    match FindFrom(s, sep, 0)
    case None =>
    case Some(i) =>
      var rest := s[i + |sep|..];
      var tail := Split(rest, sep);
      JoinSplit(rest, sep);
      var parts := [s[..i]] + tail;
      assert Split(s, sep) == parts;
      assert parts[0] == s[..i] && parts[1..] == tail;
      assert Join(parts, sep) == s[..i] + sep + Join(tail, sep);
      assert s == s[..i] + sep + rest by {
        assert s[i..i + |sep|] == sep;
        assert s == s[..i] + s[i..i + |sep|] + s[i + |sep|..];
      }
  }

  /** The last piece of a split holds no occurrence of the separator. */
  lemma {:induction false} SplitLastFree(s: string, sep: string)
    requires |sep| > 0
    ensures !Contains(Split(s, sep)[|Split(s, sep)| - 1], sep)
    decreases |s|
  {
    var parts := Split(s, sep);
    match FindFrom(s, sep, 0)
    case None =>
      assert parts == [s];
    case Some(i) =>
      var rest := Split(s[i + |sep|..], sep);
      SplitLastFree(s[i + |sep|..], sep);
      assert parts == [s[..i]] + rest;
      assert parts[|parts| - 1] == rest[|rest| - 1];
  }

  /** Joining all pieces equals joining all but the last, then the separator,
      then the last piece. */
  lemma {:induction false} JoinSnoc(parts: seq<string>, sep: string)
    requires |parts| >= 2
    ensures Join(parts, sep) == Join(parts[..|parts| - 1], sep) + sep + parts[|parts| - 1]
    decreases |parts|
  {
    if |parts| == 2 {
      assert parts[..1] == [parts[0]];
    } else {
      var tail := parts[1..];
      JoinSnoc(tail, sep);
      assert tail[..|tail| - 1] == parts[..|parts| - 1][1..];
      assert tail[|tail| - 1] == parts[|parts| - 1];
    }
  }

  /** `replace` is splitting at the pattern and joining with the
      replacement: every occurrence found by the left-to-right scan is
      replaced, and the text between occurrences is kept. */
  lemma {:induction false} ReplaceIsSplitJoin(s: string, pat: string, repl: string)
    requires |pat| > 0
    ensures ReplaceAll(s, pat, repl) == Join(Split(s, pat), repl)
    decreases |s|
  {
    match FindFrom(s, pat, 0)
    case None =>
      assert Split(s, pat) == [s];
    case Some(i) =>
      var rest := s[i + |pat|..];
      var tail := Split(rest, pat);
      ReplaceIsSplitJoin(rest, pat, repl);
      var parts := [s[..i]] + tail;
      assert Split(s, pat) == parts;
      assert parts[0] == s[..i] && parts[1..] == tail && |parts| >= 2;
      assert Join(parts, repl) == s[..i] + repl + Join(tail, repl);
      assert ReplaceAll(s, pat, repl) == s[..i] + repl + ReplaceAll(rest, pat, repl);
  }

  /** An occurrence of `pat` inside the right operand of a concatenation is an
      occurrence in the whole string, shifted by the length of the left one. */
  lemma OccursShift(a: string, b: string, pat: string, j: int)
    requires j >= |a|
    ensures OccursAt(a + b, pat, j) <==> OccursAt(b, pat, j - |a|)
  {
    if 0 <= j - |a| && j + |pat| <= |a + b| {
      assert (a + b)[j..j + |pat|] == b[j - |a|..j - |a| + |pat|];
    }
  }

  // ---------------------------------------------------------------------
  // Decimal numbers

  predicate IsDigit(c: char) { '0' <= c <= '9' }

  predicate AllDigits(s: string) { forall i :: 0 <= i < |s| ==> IsDigit(s[i]) }

  /** Python's `re.sub(r"\D", "", s)`: keep only the decimal digits. */
  function DigitsOf(s: string): (r: string)
    ensures AllDigits(r)
    ensures |r| <= |s|
  {
    if |s| == 0 then ""
    else if IsDigit(s[0]) then [s[0]] + DigitsOf(s[1..])
    else DigitsOf(s[1..])
  }

  /** Value of a string of decimal digits (most significant first). */
  function DigitsValue(s: string): nat
    requires AllDigits(s)
  {
    if |s| == 0 then 0
    else 10 * DigitsValue(s[..|s| - 1]) + (s[|s| - 1] as int - '0' as int)
  }

  /** Python's `int(s)` on an optional sign followed by ASCII digits; `None`
      stands for the `ValueError` it raises on anything else. */
  function ParseInt(s: string): (r: Option<int>)
    ensures r.Some? <==> (|s| >= 1 && AllDigits(s)) || (|s| >= 2 && (s[0] == '+' || s[0] == '-') && AllDigits(s[1..]))
    ensures |s| >= 1 && AllDigits(s) ==> r == Some(DigitsValue(s) as int)
    ensures |s| >= 2 && s[0] == '+' && AllDigits(s[1..]) ==> r == Some(DigitsValue(s[1..]) as int)
    ensures |s| >= 2 && s[0] == '-' && AllDigits(s[1..]) ==> r == Some(-(DigitsValue(s[1..]) as int))
  {
    if |s| >= 1 && AllDigits(s) then Some(DigitsValue(s) as int)
    else if |s| >= 2 && s[0] == '+' && AllDigits(s[1..]) then Some(DigitsValue(s[1..]) as int)
    else if |s| >= 2 && s[0] == '-' && AllDigits(s[1..]) then Some(-(DigitsValue(s[1..]) as int))
    else None
  }

  /** Decimal rendering of a natural number without leading zeros (`str(n)`). */
  function NatToString(n: nat): (r: string)
    ensures |r| >= 1 && AllDigits(r)
    ensures DigitsValue(r) == n
    ensures n < 10 <==> |r| == 1
    ensures n < 100 ==> |r| <= 2
    ensures n >= 1 ==> r[0] != '0'
  {
    if n < 10 then [('0' as int + n) as char]
    else
      var r := NatToString(n / 10) + [('0' as int + n % 10) as char];
      assert r[..|r| - 1] == NatToString(n / 10);
      r
  }

  /** Python's `f"{n:02d}"` for `n >= 0`: at least two digits, zero-padded. */
  function Pad2(n: nat): (r: string)
    ensures n < 100 ==> |r| == 2
    ensures |r| >= 2 && AllDigits(r)
    ensures ParseInt(r) == Some(n as int)
    ensures n >= 10 ==> r[0] != '0'
  {
    if n < 10 then
      var r := "0" + NatToString(n);
      assert r[..1] == "0";
      assert DigitsValue(r[..1]) == 0;
      assert r[..|r| - 1] == "0";
      r
    else NatToString(n)
  }
}

=== FILE: wrappers.dfy ===
/** Optional values shared by the other modules. */
module Wrappers {

  /** The conventional Some/None datatype; `None` stands for Python's `None`. */
  datatype Option<+T> = None | Some(value: T) {

    /** Returns the value in `Some`, or `default` for `None`. */
    function GetOr(default: T): T {
      match this
      case Some(v) => v
      case None => default
    }
  }
}
